=== FILE: README.md ===
# capnproto-podgen core, modelled in Dafny

capnproto-podgen reads Cap'n Proto schema files and generates plain C++
structs ("PODs") with converters to and from the Cap'n Proto wire readers and
builders. This project models the pure core of that generator and of its
runtime support headers, and proves properties about it:

- **Paths** (`paths.dfy`): `resolvePath`, which folds the components of a
  relative import path onto a folder, popping on `..`. Also the splitting of
  an import string into components, `extension()`, the `.capnp` input filter,
  and where the `.convert.cpp` source of an input is written.
- **Registry** (`registry.dfy`): the first-writer-wins maps the driver fills.
  These are `std::map::emplace` (insert only when absent) and
  `std::map::merge` (move over only the missing keys).
- **Resolver** (`resolver.dfy`): the driver's per-input pass. It skips inputs
  that are missing or are not `.capnp` files, registers the root schema's
  structs, and walks the root's imports. Built-in `/capnp/...` and absolute
  imports are skipped. Relative imports are resolved against the input's
  folder and merged into the registries. A failing import is ignored, and a
  failing root aborts the run.
- **Enums** (`enums.dfy`): `enumToName` / `enumFromName`, the enum name
  tables with their 16-bit cast.
- **Hashing** (`hashing.dfy`): `hashCombine` and the variadic `hash`. They
  form a recursive fold over the shapes scalar, container, optional, pair,
  variant and tuple, with the boost mixing step in 64-bit wrapping (`bv64`)
  arithmetic.
- **Codec** (`codec.dfy`): the generic conversion templates `_fromCapnp`,
  `_fromCapnpList`, `_toCapnp` and `_toCapnpList` of a generated codec
  header. The compile-time dispatch on C++ types becomes a match over closed
  datatypes: `Wire` for reader values, `Pod` for plain values, and `Shape`
  for the plain element type a list template is instantiated with.
- **Timestamps** (`timestamps.dfy`): the timestamp field converter. It
  reinterprets a `uint64` nanosecond count as the signed 64-bit count of a
  `sys_time<nanoseconds>`, and covers its hash and its optional formatter.

`wrappers.dfy` holds the `Option` and `Result` types the others share.

The schema parser, the schema walkers and the generated per-struct hooks are
outside the model. Their results are parameters: `ParsedSchema` and
`FileSystem` in the resolver, `Hooks` in the codec, and a digest per hashed
value.

The driver follows only the root file's own import statements
(src/main.cpp:105); imports of imports are never read. `Resolver.ProcessImports`
iterates the root's imports only.

## Model

| member | source | states |
|---|---|---|
| Paths.Parent | src/main.cpp:12 | `parent_path` drops exactly the last component and keeps the rest; the parent of the empty path is empty |
| Paths.Filename | src/main.cpp:50 | `filename()` is the last component: the parent followed by it rebuilds the path; the empty path has the empty file name |
| Paths.Step | src/main.cpp:11-15 | a `..` yields the folder minus its last component (nothing for the empty folder); any other segment is appended as one new last component; pinned further by `Paths.ResolveSingle` |
| Paths.Resolve | src/main.cpp:9-18 | resolution is total and never grows a path by more than the number of relative segments |
| Paths.ResolveEmpty | src/main.cpp:9-17 | resolving the empty relative path returns the starting folder unchanged |
| Paths.ResolveSingle | src/main.cpp:11-15 | a `..` removes exactly the last component (nothing if the folder is empty); every other segment, `.` included, is appended literally |
| Paths.ResolveConcat | src/main.cpp:10-16 | resolving `p` and then `q` equals resolving `p + q` from the same start (left fold) |
| Paths.ResolveWithoutDotDot | src/main.cpp:13-15 | a relative path with no `..` is simply appended to the folder |
| Paths.ResolveKeepsPrefix | src/main.cpp:10-16 | with `k` `..` segments, the first `|from| - k` components of the folder survive resolution |
| Paths.ResolvePastEmpty | src/main.cpp:12 | popping past the empty path leaves it empty, so a path of only `..` resolves from nothing to nothing |
| Paths.Split | src/main.cpp:114 | an import string splits into non-empty, separator-free components |
| Paths.Join | src/main.cpp:131 | the key starts with the first component and a `/` follows it when there are more; `Paths.SplitJoin` shows the key splits back into the same components |
| Paths.SplitJoin | src/main.cpp:131 | the string key of a resolved path splits back into the same components, so distinct resolved paths get distinct keys |
| Paths.LastDot | src/main.cpp:57 | finds the last `.` of a name, or reports that there is none |
| Paths.ExtensionStart | src/main.cpp:57 | `extension()` starts at the last dot, never at position 0, and is empty for `.`, `..` and names without a non-leading dot |
| Paths.Extension | src/main.cpp:57 | `extension()` is a proper suffix of the name that is empty or a single leading dot followed by dot-free characters; `Paths.StemExtension` and `Paths.SchemaFileIff` pin it further |
| Paths.Stem | src/main.cpp:68 | `stem()` is a prefix of the name, non-empty for a non-empty name; with `Paths.StemExtension` it is exactly what precedes the extension |
| Paths.StemExtension | src/main.cpp:57-68 | stem followed by extension gives the file name back |
| Paths.SchemaFileIff | src/main.cpp:57-60 | an input passes the filter exactly when its name is longer than `.capnp` and ends with `.capnp` |
| Paths.IsSchemaFile | src/main.cpp:57 | the input filter `extension() == ".capnp"`; it has no contract of its own and `Paths.SchemaFileIff` characterises it |
| Paths.ReplaceExtension | src/main.cpp:68 | `replace_extension` keeps the stem and puts a dot right after it whenever the new extension is non-empty; `Paths.ConvertSourcePath` gives the resulting name for a schema file |
| Paths.ConvertSourcePath | src/main.cpp:67-68 | the codec source is the output folder plus one component: the input name with `.capnp` replaced by `.convert.cpp` |
| Registry.Emplace | src/main.cpp:83-85 | `emplace` adds the key if absent and never overwrites an existing entry |
| Registry.EmplaceAll | src/main.cpp:82-86 | a run of `emplace` calls; it has no contract of its own: `Registry.EmplaceAllFirstWriterWins` states its keys (the old ones plus the registered ones) and values, `Registry.EmplaceAllKeeps` that old entries survive, and `Resolver.PutTypesFolds` that the registering walk is such a run |
| Registry.FirstValue | src/main.cpp:82-86 | reference for first-writer-wins: none exactly when the key never occurs, otherwise the value of its first occurrence |
| Registry.EmplaceAllFirstWriterWins | src/main.cpp:82-86 | after a run of `emplace` calls, a key is present iff it was present or registered; an old key keeps its value; a new key holds its first registration |
| Registry.EmplaceAllKeeps | src/main.cpp:82-86 | every existing entry survives any run of `emplace` calls unchanged |
| Registry.Merge | src/main.cpp:140-141 | `merge` gives the union of the keys; existing keys keep their values and only missing keys take the source's |
| Registry.MergeSingleIsEmplace | src/main.cpp:140-141 | merging a one-entry map is the same as one `emplace` |
| Registry.MergeIdempotent | src/main.cpp:140-141 | merging the same source twice changes nothing the second time |
| Registry.MergeAssociative | src/main.cpp:140-141 | successive merges can be regrouped: the earliest map wins on every shared key |
| Resolver.PutType | src/main.cpp:82-86 | the registering callback keeps every existing entry and leaves the other registries alone; a new display name or id is bound to the struct itself and a new id to its parent's id |
| Resolver.PutTypes | src/main.cpp:99 | the walker's callbacks keep every existing entry and register every walked struct by id, by display name and in the parent map |
| Resolver.PutTypesFolds | src/main.cpp:82-86 | the name, id and parent registries after the walk are the `emplace` folds of the walked (name, struct), (id, struct) and (id, parent) pairs |
| Resolver.DuplicateIdKeepsFirst | src/main.cpp:84 | a struct id reached twice keeps the struct of its first registration |
| Resolver.DuplicateNameKeepsFirst | src/main.cpp:83 | a display name reached twice keeps the struct of its first registration |
| Resolver.LoadRoot | src/main.cpp:92-103 | the root contributes its namespace under its file name, no aliases, its own external types, headers and unions; its name, id and parent registries are the `emplace` folds of its walked structs into empty maps, so every root struct is registered |
| Resolver.ClassifyImport | src/main.cpp:105-115 | an import is resolved iff it does not start with `/`; it is built-in iff it starts with `/capnp/`; a resolved import is resolved against the input's folder |
| Resolver.StartsWith | src/main.cpp:108 | `rfind(prefix, 0) == 0`, a prefix test; it has no contract of its own and `Resolver.ClassifyImport` states the import classes through it |
| Resolver.ProcessImport | src/main.cpp:105-144 | an import that does not resolve and parse changes nothing; one that does makes the name, id and parent registries the `emplace` folds of its structs over the previous ones (so it registers all of them), adds exactly its external-type and union keys with its values for new keys, and for a struct-declaring import binds a new namespace key and a new non-empty alias to its resolved path; no existing entry changes |
| Resolver.LoadImport | src/main.cpp:117-141 | the `try` block of a parsing import: the three struct registries become `emplace` folds of its structs, the namespace and non-empty alias are bound only when it declared a struct, external types and unions are merged, and no existing entry changes |
| Resolver.BindImport | src/main.cpp:130-137 | the namespace is emplaced under the import's path key, the alias only when non-empty and bound to that key, and no other registry changes |
| Resolver.MergeImport | src/main.cpp:139-141 | external types and unions are `merge`d in first-writer-wins, the other registries untouched |
| Resolver.ProcessImports | src/main.cpp:105-145 | the whole import loop never removes or changes a registry entry |
| Resolver.ImportedStructsRegistered | src/main.cpp:105-145 | after the loop, every struct of every import that resolves and parses is registered by id, display name and parent |
| Resolver.AbsoluteImportSkipped | src/main.cpp:108-112 | an import starting with `/`, `/capnp/...` included, leaves the registries unchanged |
| Resolver.UnparseableImportSkipped | src/main.cpp:117-144 | an import whose parse throws leaves the registries unchanged |
| Resolver.ImportBindingsNeedTypes | src/main.cpp:129-137 | a namespace or alias an import adds only appears when the import declared a struct; it names the resolved path; an alias is the import's own non-empty alias |
| Resolver.ContributingImportRecorded | src/main.cpp:129-137 | an import that declares a struct records its namespace under its resolved path, and binds its non-empty alias to that path, wherever the key is new |
| Resolver.LoadInput | src/main.cpp:47-91 | an input is loaded iff it exists, is a `.capnp` file and its root parses; it is skipped iff missing or not a schema file; its root parse fails iff it exists, is a `.capnp` file and does not parse |
| Resolver.RootEntriesSurvive | src/main.cpp:96-141 | imports never displace the root's name, id or parent registrations, its namespace binding or its pod headers |
| Resolver.ImportedStructsLoaded | src/main.cpp:105-114 | a loaded input's imports are resolved against the input's own folder: every struct of every such import that parses is in the input's registries |
| Resolver.JobFor | src/main.cpp:67-68 | a loaded input's job carries its registries and the codec source path derived from its file name |
| Resolver.JobsOfConcat | src/main.cpp:47-174 | the reference job list distributes over concatenation of inputs, so jobs keep input order |
| Resolver.JobsOfComplete | src/main.cpp:47-174 | every loaded input has its job in the reference list, and every listed job belongs to a loaded input |
| Resolver.FirstRootFailure | src/main.cpp:89-91 | the position of the first input whose root fails to parse, or the number of inputs if none fails |
| Resolver.Plan | src/main.cpp:47-174 | a run succeeds iff no root fails to parse, and then yields one job per loaded input in input order; otherwise it ends at the first failing input, after rendering the jobs of the inputs before it |
| Resolver.PlanComplete | src/main.cpp:47-174 | without root parse failures every loaded input gets its job |
| Resolver.EarlierJobsRendered | src/main.cpp:167-174 | with a loading input followed by a failing one, the first input's job is rendered before the run ends at the second |
| Enums.EnumToName | include/defs.hpp:59-63 | the name of an in-range value is the table entry at its 16-bit ordinal |
| Enums.IndexOf | include/defs.hpp:68 | `std::find` gives the first position holding the name, or none exactly when the name is absent |
| Enums.EnumFromName | include/defs.hpp:65-74 | the lookup fails exactly when the name is not in the table |
| Enums.NameRoundTrip | include/defs.hpp:59-74 | name-then-lookup gives the value back iff no earlier entry has the same name, so always for distinct names |
| Enums.ValueRoundTrip | include/defs.hpp:65-74 | for a table of at most 2^16 names, whenever a lookup succeeds the name of the result is the looked-up name; past 2^16 names the 16-bit cast wraps the position and the round trip can fail |
| Hashing.Hash | include/defs.hpp:120-124 | variadic `hash` combines the first argument into seed 0, then folds the rest in order |
| Hashing.Mix | include/defs.hpp:110 | the boost step, in 64-bit wrapping arithmetic with `+` binding tighter than `^`; it has no contract of its own and is pinned by `Hashing.MixPrecedence`, `Hashing.CollidingTupleSteps` and `Hashing.FoldedDigestPair` |
| Hashing.Combine | include/defs.hpp:103-148 | the overload dispatch of `hashCombine`; it has no contract of its own and is pinned per shape by `Hashing.EmptyContainer`, `Hashing.ContainerConcat`, `Hashing.OptionalCombine`, `Hashing.PairCombine`, `Hashing.VariantIgnoresIndex` and `Hashing.TupleIgnoresLeading` |
| Hashing.CombineAll | include/defs.hpp:116-117 | the variadic `hashCombine` is a left fold: combining a non-empty argument list is combining all but the last, then the last |
| Hashing.MixPrecedence | include/defs.hpp:110 | in the scalar step `+` binds tighter than `^` (a concrete evaluation) |
| Hashing.EmptyContainer | include/defs.hpp:104-108 | an empty container returns the seed unchanged |
| Hashing.ContainerConcat | include/defs.hpp:104-108 | a container is a left fold: combining `a + b` is combining `a`, then `b` |
| Hashing.OptionalCombine | include/defs.hpp:127-130 | an absent optional combines like the integer 0; a present one like its payload |
| Hashing.PairCombine | include/defs.hpp:139-142 | a pair combines first, then second, as a two-element container would |
| Hashing.VariantIgnoresIndex | include/defs.hpp:133-136 | a variant hashes only its active payload, not the index of the alternative |
| Hashing.TupleIgnoresLeading | include/defs.hpp:145-148 | as written, a tuple combines like its last element alone, whatever the earlier ones |
| Hashing.TupleCollision | include/defs.hpp:145-148 | two distinct tuples differing only in their first element hash alike |
| Hashing.CombineTupleFolded | include/defs.hpp:145-148 | the corrected tuple combine folds every element in order, from the head |
| Hashing.TupleFoldedIsPair | include/defs.hpp:139-148 | on two elements the corrected tuple combine equals the pair combine |
| Hashing.CollidingTupleSteps | include/defs.hpp:110 | the scalar steps for the colliding tuples, evaluated |
| Hashing.FoldedDigestPair | include/defs.hpp:110-118 | the corrected combine of two digests is two scalar steps from the seed |
| Hashing.TupleFoldedSeparates | include/defs.hpp:145-148 | the corrected combine tells apart the two tuples that collide as written |
| Codec.FromWireItems | example/include.convert.hpp:34-42 | decoding a wire list keeps its length; element `i` is the decoding of wire element `i` |
| Codec.FromWire | example/include.convert.hpp:22-46 | `_fromCapnp` has no contract of its own; `Codec.ScalarPassThrough`, `Codec.TextRoundTrip`, `Codec.DataRoundTrip`, `Codec.FromWireItems` and `Codec.DecodeListPreservesOrder` pin the scalar, text, data and list branches, and `Codec.HookedDecoding` the struct and enum fallback to the hooks |
| Codec.FromWireList | example/include.convert.hpp:48-70 | the list decoder appends exactly one element per wire element, in wire order |
| Codec.DecodeListElement | example/include.convert.hpp:55-66 | one step of the `_fromCapnpList` loop has no contract of its own; `Codec.FromWireList`, `Codec.ElementDecodersAgree`, `Codec.DecodedElementConforms` and `Codec.WireElementRoundTrip` pin it |
| Codec.ToWire | example/include.convert.hpp:75-88 | `_toCapnp` yields a wire value exactly for arithmetic, enum, string and byte-buffer values |
| Codec.ScalarToWire | example/include.convert.hpp:75-84 | a value of a scalar type always converts, to a wire value of the matching wire type |
| Codec.EncodeListElement | example/include.convert.hpp:99-112 | writing one conforming element always succeeds and yields a wire value of the element's wire type |
| Codec.Blank | example/include.convert.hpp:106 | `builder.init(i, e.size())` makes a builder of exactly the nested container's size; `Codec.NestedListsPreSized` uses it to show the nested size check passes |
| Codec.ToWireList | example/include.convert.hpp:90-114 | fails, writing nothing, iff the builder size differs from the container size; on success slot `i` holds the encoding of element `i` |
| Codec.EncodeItems | example/include.convert.hpp:98-113 | the writing loop fills one slot per element, each with that element's encoding |
| Codec.ScalarPassThrough | example/include.convert.hpp:22-27 | Void decodes to the unit value; arithmetic values pass through unchanged in both directions |
| Codec.TextRoundTrip | example/include.convert.hpp:28-29 | string to Text reader to string is the identity, and so is reader to string to reader |
| Codec.DataRoundTrip | example/include.convert.hpp:30-33 | a byte buffer round-trips in both directions with the same bytes in the same order |
| Codec.NonScalarsHaveNoDirectEncoding | example/include.convert.hpp:85-87 | unit values, vectors, pairs and structs have no direct wire conversion |
| Codec.DecodeListPreservesOrder | example/include.convert.hpp:34-42 | a decoded wire list is a vector of the same length whose element `i` decodes wire element `i` |
| Codec.HookedDecoding | example/include.convert.hpp:43-45 | a struct or enum reader is decoded by the generated hook alone, and its result is passed through unchanged |
| Codec.PairListDecodesEntries | example/include.convert.hpp:62-63 | a list of pairs decodes each entry's key and value independently, in wire order |
| Codec.PairListEncodesEntries | example/include.convert.hpp:102-104 | a list of pairs sets key and value at the same index as their pair |
| Codec.NestedListsPreSized | example/include.convert.hpp:105-107 | a nested list is written into a builder of its own size, so its size check always passes |
| Codec.EncodingIgnoresPriorContents | example/include.convert.hpp:98-113 | only the builder's size matters; every slot is overwritten |
| Codec.ElementRoundTrip | example/include.convert.hpp:99-110 | with inverse hooks, decoding what a slot was written with gives the element back |
| Codec.ListRoundTrip | example/include.convert.hpp:90-114 | with inverse hooks, decoding the list written by `_toCapnpList` gives the container back |
| Codec.DecodedElementConforms | example/include.convert.hpp:55-66 | a decoded list element is a plain value of the element type |
| Codec.DecodedListConforms | example/include.convert.hpp:48-70 | every decoded list element is a plain value of the element type |
| Codec.WireElementRoundTrip | example/include.convert.hpp:55-66 | with inverse hooks, re-encoding a decoded element writes back the same wire value |
| Codec.WireListRoundTrip | example/include.convert.hpp:48-70 | with inverse hooks, re-encoding a decoded list into a fresh builder of its size gives the same slots |
| Codec.ListDecodersAgree | example/include.convert.hpp:48-70 | for element types without pairs, the list decoder agrees with `_fromCapnp` on lists |
| Codec.ElementDecodersAgree | example/include.convert.hpp:56-65 | for element types without pairs, one list-decoder step agrees with `_fromCapnp` |
| Timestamps.FromNanos | include/timestamp.convert.hpp:18-20 | the signed count is congruent to the unsigned value modulo 2^64, and negative exactly for values from 2^63 on |
| Timestamps.ToNanos | include/timestamp.convert.hpp:22-24 | the unsigned value is congruent to the signed count modulo 2^64, and at least 2^63 exactly for negative counts |
| Timestamps.NanosRoundTrip | include/timestamp.convert.hpp:18-24 | unsigned to timestamp to unsigned is the identity on every 64-bit value |
| Timestamps.TimestampRoundTrip | include/timestamp.convert.hpp:16-24 | timestamp to unsigned to timestamp is the identity on every signed 64-bit count |
| Timestamps.Hash | include/timestamp.convert.hpp:47-51 | the hash of a timestamp is its nanosecond count as an unsigned 64-bit value |
| Timestamps.HashInjective | include/timestamp.convert.hpp:47-51 | distinct timestamps never share a hash |
| Timestamps.OutTimestamp | include/timestamp.convert.hpp:26-30 | a present timestamp prints in brackets |
| Timestamps.OutOptionalTimestamp | include/timestamp.convert.hpp:34-40 | an absent timestamp prints exactly `{}`; a present one prints as the scalar formatter does |
| Timestamps.AbsentDistinguishable | include/timestamp.convert.hpp:34-40 | the output tells an absent timestamp from a present one |

## Left out

- Command-line parsing, folder canonicalisation and the exit codes of `main` (src/main.cpp:179-233): argv and filesystem plumbing.
- The KJ filesystem, the `SchemaParser` and the existence check (src/main.cpp:26-40, 52, 88-91, 119-121): foreign I/O. `Resolver.FileSystem` says which paths exist and which parse. Any exception other than a parse failure is not modelled.
- The schema walkers and name helpers `generateFromSchema`, `findExternalTypes`, `findUnionFields`, `getNamespace`, `getImportsFromCapnp`, `capnpToPodImport` and `capnpToConvertImport`: `PodGenerator.hpp` is not part of this model. Their results are the fields of `Resolver.ParsedSchema`, and the walker's count is the number of structs it reports.
- The pod header and convert header output names (src/main.cpp:70-74): they come from `capnpToPodImport` / `capnpToConvertImport`, defined in `PodGenerator.hpp`, outside this model.
- Template loading, file writing and `generateFile` (src/main.cpp:147-173): I/O and a renderer defined in `PodGenerator.hpp`, outside this model. A failing `generate` that ends the run with exit code 1 is therefore not modelled either.
- Console output of every kind.
- Resolver.ProcessImports: imports of imports are not followed because the code does not follow them (see above).
- Paths.Split: a trailing separator's empty final element of `std::filesystem::path` iteration, and the root component of an absolute path, are not modelled. Absolute imports never reach resolution.
- Paths.Parent: the special case of `parent_path` on a root path is not modelled, because the inputs are relative paths.
- The struct hooks `podFromCapnp` / `podToCapnp` and the enum conversions (example/include.convert.hpp:8-16, 44, 80, 109): generated elsewhere, so they are the fields of `Codec.Hooks`. The round-trip lemmas assume the hooks are mutually inverse. A struct hook writing into a builder slot is modelled as producing the whole slot.
- `std::hash` of primitive types and `T::_Hasher` (include/defs.hpp:48-57, 76-84): library or generated code. `Hashing.Hashed` carries the digest they return.
- The concept and trait machinery (include/defs.hpp:19-57): replaced by the constructors of `Hashing.Hashable`, `Codec.Wire`, `Codec.Pod` and `Codec.Shape` rather than by modelled overload resolution.
- Hashing: `hashCombine(s, obj)` is not shown to separate different inputs in general. That property of the boost mix step is not stated.
- Codec.FromWireList: the decoded container is always a `std::vector`. Other target containers of `_fromCapnpList<T>`, such as sets or maps, are not modelled.
- Codec.EncodeListElement: lists of `std::monostate` have no conversion in the source, so the element type Void is excluded by `Codec.ListEncodable`. Pair elements are restricted to scalar keys and values, the only ones `_toCapnp` converts.
- Codec.ToWireList: the loop index is a `uint`; its wrap-around beyond 2^32 elements is not modelled, since Cap'n Proto lists are far shorter.
- Floating-point values are carried as their bit patterns and never computed with.
- Strings: import paths, namespaces, aliases and Cap'n Proto `Text` are Dafny strings, sequences of Unicode scalar values, while the source holds them as `std::string` bytes. `Codec.TextRoundTrip` and the path lemmas hold over that abstraction; byte-level encoding is not modelled.
- Time-zone formatting with `current_zone` / `zoned_time` (include/timestamp.convert.hpp:26-30): it depends on the system's time-zone database. The rendering is a parameter of `Timestamps.OutTimestamp`.
- Timestamps.Hash: states the hash as an unbounded integer in the unsigned 64-bit range rather than as a `bv64` value.

## Findings

| source | as written | input that shows it | evidently intended | confidence | as-written member | corrected member |
|---|---|---|---|---|---|---|
| include/defs.hpp:147 | the tuple combine `(hashCombine(s, args), ...)` is a comma fold, so every call starts from the same seed `s` and only the last call's result is returned | the tuples `(1, 2)` and `(3, 2)` with digests 1, 3 and 2: both hash like `2` alone | fold every element in order, as the pair overload does: `hashCombine(s, args...)` | high, not executed | Hashing.TupleCollision | Hashing.CombineTupleFolded |

=== FILE: codec.dfy ===
/**
 * The generic wire/POD conversion templates of a generated codec header
 * (example/include.convert.hpp): `_fromCapnp` and `_fromCapnpList` decode
 * wire readers into plain values, `_toCapnp` and `_toCapnpList` encode plain
 * values into a pre-sized wire list builder. The compile-time dispatch on the
 * C++ types becomes a match on closed datatypes: `Wire` for what a reader
 * holds, `Pod` for plain values, and `Shape` for the plain element type a
 * list template is instantiated with. The per-struct and per-enum hooks
 * (`podFromCapnp`, `podToCapnp`) are generated elsewhere and are parameters.
 */
module Codec {
  import opened Wrappers
  import opened Enums

  type Byte = bv8

  /** An arithmetic value (bool, integer or floating point, the last as its bits); copied as is. */
  datatype Arith = Bool(b: bool) | Int(i: int) | Float(bits: bv64)

  /** What a wire reader holds. */
  datatype Wire =
    | WVoid
    | WArith(arith: Arith)
    | WText(text: string)
    | WData(bytes: seq<Byte>)
    | WList(items: seq<Wire>)
    | WStruct(reader: StructReader)
    | WEnum(ordinal: Ordinal)

  /** A struct reader: a map entry with `getKey` / `getValue`, or any other struct, known by a handle. */
  datatype StructReader = Entry(key: Wire, value: Wire) | Record(handle: nat)

  /** A plain value: `std::monostate`, arithmetic, `std::string`, `podgen::Data`, `std::vector`, `std::pair`, a generated struct, an enum. */
  datatype Pod =
    | PUnit
    | PArith(arith: Arith)
    | PString(chars: string)
    | PBytes(data: seq<Byte>)
    | PVector(elements: seq<Pod>)
    | PPair(first: Pod, second: Pod)
    | PStruct(handle: nat)
    | PEnum(ordinal: Ordinal)

  /** The plain type a list template is instantiated with. */
  datatype Shape =
    | VoidShape
    | ArithShape
    | TextShape
    | DataShape
    | ListShape(element: Shape)
    | PairShape(key: Shape, value: Shape)
    | StructShape
    | EnumShape

  /** The generated per-type conversions the templates call: `podFromCapnp` and `podToCapnp`. */
  datatype Hooks = Hooks(
    structFrom: StructReader -> nat,
    structTo: nat -> StructReader,
    enumFrom: Ordinal -> Ordinal,
    enumTo: Ordinal -> Ordinal)

  /** The `std::invalid_argument` `_toCapnpList` throws: the builder was not initialised to the container's size. */
  datatype CodecError = SizeMismatch

  /** A reader of the wire type that corresponds to plain type `t`. */
  predicate WireHas(w: Wire, t: Shape)
    decreases w
  {
    match t
    case VoidShape => w.WVoid?
    case ArithShape => w.WArith?
    case TextShape => w.WText?
    case DataShape => w.WData?
    case ListShape(e) => w.WList? && forall i :: 0 <= i < |w.items| ==> WireHas(w.items[i], e)
    case PairShape(k, v) =>
      w.WStruct? && w.reader.Entry? && WireHas(w.reader.key, k) && WireHas(w.reader.value, v)
    case StructShape => w.WStruct?
    case EnumShape => w.WEnum?
  }

  /** A plain value of type `t`. */
  predicate PodHas(p: Pod, t: Shape)
    decreases p
  {
    match t
    case VoidShape => p.PUnit?
    case ArithShape => p.PArith?
    case TextShape => p.PString?
    case DataShape => p.PBytes?
    case ListShape(e) => p.PVector? && forall i :: 0 <= i < |p.elements| ==> PodHas(p.elements[i], e)
    case PairShape(k, v) => p.PPair? && PodHas(p.first, k) && PodHas(p.second, v)
    case StructShape => p.PStruct?
    case EnumShape => p.PEnum?
  }

  /** The plain types `_toCapnp` converts to a wire value instead of returning nothing. */
  predicate IsScalar(t: Shape) {
    t.ArithShape? || t.TextShape? || t.DataShape? || t.EnumShape?
  }

  /**
   * The element types `_toCapnpList` compiles for: scalars, structs (through
   * the hook), pairs of scalars, and lists of such. A `std::monostate`
   * element has no conversion at all.
   */
  predicate ListEncodable(t: Shape) {
    match t
    case VoidShape => false
    case PairShape(k, v) => IsScalar(k) && IsScalar(v)
    case ListShape(e) => ListEncodable(e)
    case _ => true
  }

  /** A plain type with no pair anywhere inside. */
  predicate PairFree(t: Shape) {
    match t
    case PairShape(_, _) => false
    case ListShape(e) => PairFree(e)
    case _ => true
  }

  // ----- decoding -----

  /** `_fromCapnp`: dispatch on the reader alone; lists are decoded element by element. */
  function FromWire(w: Wire, hooks: Hooks): Pod
    decreases w, 1
  {
    match w
    case WVoid => PUnit
    case WArith(a) => PArith(a)
    case WText(t) => PString(t)
    case WData(d) => PBytes(d)
    case WList(ws) => PVector(FromWireItems(ws, hooks))
    case WStruct(r) => PStruct(hooks.structFrom(r))
    case WEnum(o) => PEnum(hooks.enumFrom(o))
  }

  /** The `push_back` loop of `_fromCapnp` on a list: same length, same order, element by element. */
  function FromWireItems(ws: seq<Wire>, hooks: Hooks): (ps: seq<Pod>)
    ensures |ps| == |ws|
    ensures forall i :: 0 <= i < |ws| ==> ps[i] == FromWire(ws[i], hooks)
    decreases ws, 0
  {
    if |ws| == 0 then [] else [FromWire(ws[0], hooks)] + FromWireItems(ws[1..], hooks)
  }

  /**
   * One iteration of `_fromCapnpList<T>`: text and data decode directly, a
   * nested list recurses with the element type, a pair element is rebuilt
   * from the entry's key and value, anything else goes to `_fromCapnp`.
   */
  function DecodeListElement(w: Wire, elem: Shape, hooks: Hooks): Pod
    requires WireHas(w, elem)
    decreases w, 1
  {
    if w.WText? || w.WData? then FromWire(w, hooks)
    else if w.WList? then PVector(FromWireList(w.items, elem.element, hooks))
    else if elem.PairShape? then PPair(FromWire(w.reader.key, hooks), FromWire(w.reader.value, hooks))
    else FromWire(w, hooks)
  }

  /** `_fromCapnpList<std::vector<E>>`: appends the decoded elements in wire order. */
  function FromWireList(ws: seq<Wire>, elem: Shape, hooks: Hooks): (ps: seq<Pod>)
    requires forall i :: 0 <= i < |ws| ==> WireHas(ws[i], elem)
    ensures |ps| == |ws|
    ensures forall i :: 0 <= i < |ws| ==> ps[i] == DecodeListElement(ws[i], elem, hooks)
    decreases ws, 0
  {
    if |ws| == 0 then []
    else [DecodeListElement(ws[0], elem, hooks)] + FromWireList(ws[1..], elem, hooks)
  }

  // ----- encoding -----

  /** `_toCapnp`: arithmetic, enums, strings and byte buffers convert; anything else returns nothing. */
  function ToWire(p: Pod, hooks: Hooks): (r: Option<Wire>)
    ensures r.Some? <==> p.PArith? || p.PEnum? || p.PString? || p.PBytes?
  {
    match p
    case PArith(a) => Some(WArith(a))
    case PEnum(o) => Some(WEnum(hooks.enumTo(o)))
    case PString(s) => Some(WText(s))
    case PBytes(d) => Some(WData(d))
    case _ => None
  }

  /** `_toCapnp` of a value of a scalar type: always a wire value, of the matching wire type. */
  function ScalarToWire(p: Pod, t: Shape, hooks: Hooks): (w: Wire)
    requires IsScalar(t) && PodHas(p, t)
    ensures ToWire(p, hooks) == Some(w) && WireHas(w, t)
  {
    match p
    case PArith(a) => WArith(a)
    case PEnum(o) => WEnum(hooks.enumTo(o))
    case PString(s) => WText(s)
    case PBytes(d) => WData(d)
    case _ => assert false; WVoid
  }

  /** A freshly initialised list builder of `n` slots. */
  function Blank(n: nat): (b: seq<Wire>)
    ensures |b| == n
  {
    seq(n, _ => WVoid)
  }

  /**
   * What one iteration of `_toCapnpList` writes into slot `i`: a converted
   * scalar, an entry from the pair's converted halves, a nested list through
   * `init(i, e.size())` and a recursive `_toCapnpList`, or the struct hook.
   * A nested list's own size check therefore always passes.
   */
  function EncodeListElement(p: Pod, elem: Shape, hooks: Hooks): (r: Result<Wire, CodecError>)
    requires ListEncodable(elem) && PodHas(p, elem)
    ensures r.Success? && WireHas(r.value, elem)
    decreases p, 0
  {
    var direct := ToWire(p, hooks);
    if direct.Some? then Success(direct.value)
    else match p
      case PPair(a, b) => Success(WStruct(Entry(ScalarToWire(a, elem.key, hooks), ScalarToWire(b, elem.value, hooks))))
      case PVector(items) =>
        (match ToWireList(Blank(|items|), items, elem.element, hooks)
         case Success(ws) => Success(WList(ws))
         case Failure(e) => Failure(e))
      case PStruct(h) => Success(WStruct(hooks.structTo(h)))
      case PUnit => assert false; Success(WVoid)
  }

  /**
   * `_toCapnpList(builder, container)`: throws, writing nothing, unless the
   * builder has exactly the container's size; otherwise slot `i` receives
   * the encoding of element `i`, for every `i`.
   */
  function ToWireList(builder: seq<Wire>, container: seq<Pod>, elem: Shape, hooks: Hooks): (r: Result<seq<Wire>, CodecError>)
    requires ListEncodable(elem)
    requires forall i :: 0 <= i < |container| ==> PodHas(container[i], elem)
    ensures r.Success? <==> |builder| == |container|
    ensures r.Failure? ==> r.error == SizeMismatch
    ensures r.Success? ==> |r.value| == |builder|
    ensures r.Success? ==> forall i :: 0 <= i < |r.value| ==>
      EncodeListElement(container[i], elem, hooks) == Success(r.value[i]) && WireHas(r.value[i], elem)
    decreases container, 2
  {
    if |builder| != |container| then Failure(SizeMismatch)
    else Success(EncodeItems(container, elem, hooks))
  }

  /** The writing loop of `_toCapnpList`, once the size check has passed. */
  function EncodeItems(container: seq<Pod>, elem: Shape, hooks: Hooks): (ws: seq<Wire>)
    requires ListEncodable(elem)
    requires forall i :: 0 <= i < |container| ==> PodHas(container[i], elem)
    ensures |ws| == |container|
    ensures forall i :: 0 <= i < |ws| ==>
      EncodeListElement(container[i], elem, hooks) == Success(ws[i]) && WireHas(ws[i], elem)
    decreases container, 1
  {
    if |container| == 0 then []
    else [EncodeListElement(container[0], elem, hooks).value] + EncodeItems(container[1..], elem, hooks)
  }

  // ----- properties -----

  /** Void decodes to the unit value; arithmetic values pass through unchanged in both directions. */
  lemma ScalarPassThrough(a: Arith, hooks: Hooks)
    ensures FromWire(WVoid, hooks) == PUnit
    ensures FromWire(WArith(a), hooks) == PArith(a)
    ensures ToWire(PArith(a), hooks) == Some(WArith(a))
  {
  }

  /** Text round-trips: string to text reader to string, and reader to string to reader. */
  lemma TextRoundTrip(s: string, hooks: Hooks)
    ensures FromWire(ToWire(PString(s), hooks).value, hooks) == PString(s)
    ensures ToWire(FromWire(WText(s), hooks), hooks) == Some(WText(s))
  {
  }

  /** Data round-trips: the same bytes, in the same length and order, both ways. */
  lemma DataRoundTrip(d: seq<Byte>, hooks: Hooks)
    ensures FromWire(ToWire(PBytes(d), hooks).value, hooks) == PBytes(d)
    ensures ToWire(FromWire(WData(d), hooks), hooks) == Some(WData(d))
  {
  }

  /** Struct and enum readers fall through to the generated hooks: the result is whatever the hook returns. */
  lemma HookedDecoding(r: StructReader, o: Ordinal, hooks: Hooks)
    ensures FromWire(WStruct(r), hooks) == PStruct(hooks.structFrom(r))
    ensures FromWire(WEnum(o), hooks) == PEnum(hooks.enumFrom(o))
  {
  }

  /** `_toCapnp` returns nothing for the unit value, vectors, pairs and structs. */
  lemma NonScalarsHaveNoDirectEncoding(p: Pod, hooks: Hooks)
    requires p.PUnit? || p.PVector? || p.PPair? || p.PStruct?
    ensures ToWire(p, hooks) == None
  {
  }

  /** Decoding a wire list with `_fromCapnp` gives a vector of the same length, element `i` decoded from wire element `i`. */
  lemma DecodeListPreservesOrder(ws: seq<Wire>, hooks: Hooks)
    ensures FromWire(WList(ws), hooks).PVector?
    ensures |FromWire(WList(ws), hooks).elements| == |ws|
    ensures forall i :: 0 <= i < |ws| ==> FromWire(WList(ws), hooks).elements[i] == FromWire(ws[i], hooks)
  {
  }

  /** A list of pairs decodes each entry's key and value independently, in wire order. */
  lemma PairListDecodesEntries(ws: seq<Wire>, k: Shape, v: Shape, hooks: Hooks)
    requires forall i :: 0 <= i < |ws| ==> WireHas(ws[i], PairShape(k, v))
    ensures |FromWireList(ws, PairShape(k, v), hooks)| == |ws|
    ensures forall i :: 0 <= i < |ws| ==>
      FromWireList(ws, PairShape(k, v), hooks)[i]
      == PPair(FromWire(ws[i].reader.key, hooks), FromWire(ws[i].reader.value, hooks))
  {
  }

  /** A list of pairs is encoded with key and value set at the same index as their pair. */
  lemma PairListEncodesEntries(builder: seq<Wire>, container: seq<Pod>, k: Shape, v: Shape, hooks: Hooks)
    requires IsScalar(k) && IsScalar(v)
    requires forall i :: 0 <= i < |container| ==> PodHas(container[i], PairShape(k, v))
    requires |builder| == |container|
    ensures var r := ToWireList(builder, container, PairShape(k, v), hooks);
      r.Success? && forall i :: 0 <= i < |container| ==>
        r.value[i] == WStruct(Entry(ScalarToWire(container[i].first, k, hooks), ScalarToWire(container[i].second, v, hooks)))
  {
    var r := ToWireList(builder, container, PairShape(k, v), hooks);
    forall i | 0 <= i < |container|
      ensures r.value[i] == WStruct(Entry(ScalarToWire(container[i].first, k, hooks), ScalarToWire(container[i].second, v, hooks)))
    {
      assert EncodeListElement(container[i], PairShape(k, v), hooks) == Success(r.value[i]);
    }
  }

  /** A builder pre-sized by `init(i, e.size())` never trips the size check, whatever the nesting depth. */
  lemma NestedListsPreSized(items: seq<Pod>, elem: Shape, hooks: Hooks)
    requires ListEncodable(elem)
    requires forall i :: 0 <= i < |items| ==> PodHas(items[i], elem)
    ensures ToWireList(Blank(|items|), items, elem, hooks).Success?
    ensures EncodeListElement(PVector(items), ListShape(elem), hooks).value.WList?
  {
  }

  /** Only the builder's size matters: every slot is overwritten, so its previous contents do not show. */
  lemma EncodingIgnoresPriorContents(b1: seq<Wire>, b2: seq<Wire>, container: seq<Pod>, elem: Shape, hooks: Hooks)
    requires ListEncodable(elem)
    requires forall i :: 0 <= i < |container| ==> PodHas(container[i], elem)
    requires |b1| == |b2|
    ensures ToWireList(b1, container, elem, hooks) == ToWireList(b2, container, elem, hooks)
  {
  }

  /** The generated struct and enum conversions undo each other, plain value first. */
  ghost predicate PodHooksInverse(hooks: Hooks) {
    && (forall h: nat :: hooks.structFrom(hooks.structTo(h)) == h)
    && (forall o: Ordinal :: hooks.enumFrom(hooks.enumTo(o)) == o)
  }

  /** The generated struct and enum conversions undo each other, wire value first. */
  ghost predicate WireHooksInverse(hooks: Hooks) {
    && (forall r: StructReader :: hooks.structTo(hooks.structFrom(r)) == r)
    && (forall o: Ordinal :: hooks.enumTo(hooks.enumFrom(o)) == o)
  }

  /** Decoding what one slot was written with gives the element back. */
  lemma {:induction false} ElementRoundTrip(p: Pod, elem: Shape, hooks: Hooks)
    requires ListEncodable(elem) && PodHas(p, elem) && PodHooksInverse(hooks)
    ensures DecodeListElement(EncodeListElement(p, elem, hooks).value, elem, hooks) == p
    decreases p, 0
  {
    match p
    case PVector(items) =>
      ListRoundTrip(Blank(|items|), items, elem.element, hooks);
    case PEnum(o) =>
      assert hooks.enumFrom(hooks.enumTo(o)) == o;
    case PStruct(h) =>
      assert hooks.structFrom(hooks.structTo(h)) == h;
    case PPair(a, b) =>
      assert a.PEnum? ==> hooks.enumFrom(hooks.enumTo(a.ordinal)) == a.ordinal;
      assert b.PEnum? ==> hooks.enumFrom(hooks.enumTo(b.ordinal)) == b.ordinal;
    case _ =>
  }

  /** `decode(encode(x)) == x` for lists: `_fromCapnpList` of what `_toCapnpList` wrote is the container. */
  lemma {:induction false} ListRoundTrip(builder: seq<Wire>, container: seq<Pod>, elem: Shape, hooks: Hooks)
    requires ListEncodable(elem) && PodHooksInverse(hooks)
    requires forall i :: 0 <= i < |container| ==> PodHas(container[i], elem)
    requires |builder| == |container|
    ensures FromWireList(ToWireList(builder, container, elem, hooks).value, elem, hooks) == container
    decreases container, 1
  {
    var ws := ToWireList(builder, container, elem, hooks).value;
    var ps := FromWireList(ws, elem, hooks);
    forall i | 0 <= i < |container|
      ensures ps[i] == container[i]
    {
      ElementRoundTrip(container[i], elem, hooks);
    }
  }

  /** A decoded slot is a plain value of the element type. */
  lemma {:induction false} DecodedElementConforms(w: Wire, elem: Shape, hooks: Hooks)
    requires ListEncodable(elem) && WireHas(w, elem)
    ensures PodHas(DecodeListElement(w, elem, hooks), elem)
    decreases w, 1
  {
    if w.WList? {
      DecodedListConforms(w.items, elem.element, hooks);
    }
  }

  lemma {:induction false} DecodedListConforms(ws: seq<Wire>, elem: Shape, hooks: Hooks)
    requires ListEncodable(elem)
    requires forall i :: 0 <= i < |ws| ==> WireHas(ws[i], elem)
    ensures forall i :: 0 <= i < |ws| ==> PodHas(FromWireList(ws, elem, hooks)[i], elem)
    decreases ws, 0
  {
    forall i | 0 <= i < |ws|
      ensures PodHas(FromWireList(ws, elem, hooks)[i], elem)
    {
      DecodedElementConforms(ws[i], elem, hooks);
    }
  }

  /** Encoding a decoded slot writes back the same wire value. */
  lemma {:induction false} WireElementRoundTrip(w: Wire, elem: Shape, hooks: Hooks)
    requires ListEncodable(elem) && WireHas(w, elem) && WireHooksInverse(hooks)
    ensures PodHas(DecodeListElement(w, elem, hooks), elem)
    ensures EncodeListElement(DecodeListElement(w, elem, hooks), elem, hooks) == Success(w)
    decreases w, 1
  {
    DecodedElementConforms(w, elem, hooks);
    match w
    case WList(ws) =>
      DecodedListConforms(ws, elem.element, hooks);
      WireListRoundTrip(ws, elem.element, hooks);
    case WEnum(o) =>
      assert hooks.enumTo(hooks.enumFrom(o)) == o;
    case WStruct(r) =>
      if elem.PairShape? {
        var k, v := r.key, r.value;
        assert k.WEnum? ==> hooks.enumTo(hooks.enumFrom(k.ordinal)) == k.ordinal;
        assert v.WEnum? ==> hooks.enumTo(hooks.enumFrom(v.ordinal)) == v.ordinal;
      } else {
        assert hooks.structTo(hooks.structFrom(r)) == r;
      }
    case _ =>
  }

  /** `encode(decode(w)) == w` for lists: re-encoding a decoded list into a fresh builder of its size gives the same slots. */
  lemma {:induction false} WireListRoundTrip(ws: seq<Wire>, elem: Shape, hooks: Hooks)
    requires ListEncodable(elem) && WireHooksInverse(hooks)
    requires forall i :: 0 <= i < |ws| ==> WireHas(ws[i], elem)
    ensures forall i :: 0 <= i < |ws| ==> PodHas(FromWireList(ws, elem, hooks)[i], elem)
    ensures ToWireList(Blank(|ws|), FromWireList(ws, elem, hooks), elem, hooks) == Success(ws)
    decreases ws, 0
  {
    DecodedListConforms(ws, elem, hooks);
    var ps := FromWireList(ws, elem, hooks);
    var r := ToWireList(Blank(|ws|), ps, elem, hooks);
    forall i | 0 <= i < |ws|
      ensures r.value[i] == ws[i]
    {
      WireElementRoundTrip(ws[i], elem, hooks);
    }
    assert r.value == ws;
  }

  /** On element types without pairs the list decoder agrees with the generic `_fromCapnp` list branch. */
  lemma {:induction false} ListDecodersAgree(ws: seq<Wire>, elem: Shape, hooks: Hooks)
    requires PairFree(elem)
    requires forall i :: 0 <= i < |ws| ==> WireHas(ws[i], elem)
    ensures FromWireList(ws, elem, hooks) == FromWireItems(ws, hooks)
    decreases ws, 0
  {
    forall i | 0 <= i < |ws|
      ensures FromWireList(ws, elem, hooks)[i] == FromWireItems(ws, hooks)[i]
    {
      ElementDecodersAgree(ws[i], elem, hooks);
    }
  }

  lemma {:induction false} ElementDecodersAgree(w: Wire, elem: Shape, hooks: Hooks)
    requires PairFree(elem) && WireHas(w, elem)
    ensures DecodeListElement(w, elem, hooks) == FromWire(w, hooks)
    decreases w, 1
  {
    if w.WList? {
      ListDecodersAgree(w.items, elem.element, hooks);
    }
  }
}

=== FILE: enums.dfy ===
/**
 * The enum name tables of the generated code (include/defs.hpp,
 * `enumToName` / `enumFromName`): an enum value indexes a table of names,
 * and a name is looked up by its first occurrence in the table.
 */
module Enums {
  import opened Wrappers

  /** Number of distinct 16-bit ordinals. */
  const OrdinalCount: int := 0x1_0000

  /** An enum value as its 16-bit ordinal: Cap'n Proto enums are 16-bit, so the cast to `uint16_t` keeps it. */
  type Ordinal = x: int | 0 <= x < 0x1_0000

  /** `enumToName(e, names)`: the table entry at the value's ordinal; the source does no bounds check. */
  function EnumToName(e: Ordinal, names: seq<string>): (r: string)
    requires e < |names|
    ensures r == names[e]
  {
    names[e]
  }

  /** `std::find`: the first position of `name` in `names`, if any. */
  function IndexOf(names: seq<string>, name: string): (r: Option<nat>)
    ensures r.None? <==> name !in names
    ensures r.Some? ==>
      r.value < |names| && names[r.value] == name && forall j :: 0 <= j < r.value ==> names[j] != name
  {
    if |names| == 0 then None
    else if names[0] == name then Some(0)
    else match IndexOf(names[1..], name)
      case None => None
      case Some(i) =>
        assert forall j :: 1 <= j < i + 1 ==> names[j] == names[1..][j - 1];
        Some(i + 1)
  }

  /**
   * `enumFromName(name, names)`: the value whose ordinal is the position of
   * the first matching name (the cast to the 16-bit enum wraps), or none.
   */
  function EnumFromName(name: string, names: seq<string>): (r: Option<Ordinal>)
    ensures r.None? <==> name !in names
  {
    match IndexOf(names, name)
    case None => None
    case Some(i) => Some(i % OrdinalCount)
  }

  ghost predicate Distinct(names: seq<string>) {
    forall i, j :: 0 <= i < j < |names| ==> names[i] != names[j]
  }

  /**
   * Looking up the name of a value gives the value back exactly when no
   * earlier entry of the table carries the same name; in particular for
   * every value when the names are pairwise distinct.
   */
  lemma NameRoundTrip(e: Ordinal, names: seq<string>)
    requires e < |names|
    ensures EnumFromName(EnumToName(e, names), names) == Some(e) <==>
      forall j :: 0 <= j < e ==> names[j] != names[e]
    ensures Distinct(names) ==> EnumFromName(EnumToName(e, names), names) == Some(e)
  {
    var i := IndexOf(names, names[e]).value;
    assert i <= e;
  }

  /** A successful lookup names a value whose table entry is the looked-up name. */
  lemma ValueRoundTrip(name: string, names: seq<string>)
    requires |names| <= OrdinalCount
    requires EnumFromName(name, names).Some?
    ensures var e := EnumFromName(name, names).value;
      e < |names| && EnumToName(e, names) == name
  {
  }
}

=== FILE: hashing.dfy ===
/**
 * The hash-combine algebra of the generated code (include/defs.hpp,
 * `hashCombine` and the variadic `hash`). The compile-time overload choice
 * becomes a closed datatype of value shapes; `std::size_t` is 64 bits and
 * wraps, so every step is `bv64` arithmetic.
 */
module Hashing {
  import opened Wrappers

  /** The shapes `hashCombine` distinguishes. */
  datatype Hashable =
    /** A value with its own `std::hash` or generated `_Hasher`; `digest` is what that hash returns. */
    | Hashed(digest: bv64)
    /** An iterable value without a hash of its own, combined element by element. */
    | Container(elements: seq<Hashable>)
    | Optional(content: Option<Hashable>)
    | Pair(first: Hashable, second: Hashable)
    /** A variant with the index of its active alternative and that alternative's value. */
    | Variant(index: nat, active: Hashable)
    /** A tuple; it has at least one element, since the comma fold over no elements does not compile. */
    | Tuple(head: Hashable, tail: seq<Hashable>)

  /** The constant of `boost::hash_combine`. */
  const GoldenRatio: bv64 := 0x9e3779b9

  /** `std::hash<int>` of `0`, combined for an absent optional; the identity hash of the common libraries gives 0. */
  const ZeroDigest: bv64 := 0

  /** The scalar step `s ^ hash(obj) + 0x9e3779b9 + (s << 6) + (s >> 2)`: `+` binds tighter than `^`. */
  function Mix(s: bv64, digest: bv64): bv64 {
    s ^ (digest + GoldenRatio + (s << 6) + (s >> 2))
  }

  /** `hashCombine(s, obj)` dispatched on the shape of `obj`. */
  function Combine(s: bv64, v: Hashable): bv64
    decreases v
  {
    match v
    case Hashed(d) => Mix(s, d)
    case Container(es) => CombineAll(s, es)
    case Optional(o) => if o.Some? then Combine(s, o.value) else Mix(s, ZeroDigest)
    case Pair(a, b) => Combine(Combine(s, a), b)
    case Variant(_, a) => Combine(s, a)
    case Tuple(h, t) => if |t| == 0 then Combine(s, h) else Combine(s, t[|t| - 1])
  }

  /** `hashCombine(s, a, b, ...)`: the left fold of `Combine` over the arguments. */
  function CombineAll(s: bv64, es: seq<Hashable>): (r: bv64)
    ensures |es| > 0 ==> r == Combine(CombineAll(s, es[..|es| - 1]), es[|es| - 1])
    decreases es
  {
    if |es| == 0 then s
    else
      assert |es| > 1 ==> es[..|es| - 1][1..] == es[1..][..|es| - 2];
      CombineAll(Combine(s, es[0]), es[1..])
  }

  /**
   * `hash(a, b, ...)`: the fold from seed 0. With one argument the call
   * resolves to the plain single-object `hash` instead, so the fold needs two.
   */
  function Hash(args: seq<Hashable>): (h: bv64)
    requires |args| >= 2
    ensures h == Combine(Combine(0, args[0]), Container(args[1..]))
  {
    CombineAll(0, args)
  }

  /** The operator precedence on a concrete input: the mixed value is `1 ^ (0x9e3779b9 + 64)`, not `(1 ^ 0) + ...`. */
  lemma MixPrecedence()
    ensures Mix(1, 0) == 0x9e3779f8
  {
  }

  /** An empty container leaves the seed unchanged. */
  lemma EmptyContainer(s: bv64)
    ensures Combine(s, Container([])) == s
  {
  }

  /** Combining a container is a left fold: splitting it combines the two halves in turn. */
  lemma {:induction false} ContainerConcat(s: bv64, a: seq<Hashable>, b: seq<Hashable>)
    ensures Combine(s, Container(a + b)) == Combine(Combine(s, Container(a)), Container(b))
    decreases |a|
  {
    if |a| == 0 {
      assert a + b == b;
    } else {
      assert (a + b)[0] == a[0];
      assert (a + b)[1..] == a[1..] + b;
      ContainerConcat(Combine(s, a[0]), a[1..], b);
    }
  }

  /** An absent optional combines like the integer 0; a present one like its payload. */
  lemma OptionalCombine(s: bv64, v: Hashable)
    ensures Combine(s, Optional(None)) == Combine(s, Hashed(ZeroDigest))
    ensures Combine(s, Optional(Some(v))) == Combine(s, v)
  {
  }

  /** A pair combines its first, then its second element, as the two-argument `hashCombine` does. */
  lemma PairCombine(s: bv64, a: Hashable, b: Hashable)
    ensures Combine(s, Pair(a, b)) == CombineAll(s, [a, b])
    ensures Combine(s, Pair(a, b)) == Combine(s, Container([a, b]))
  {
    assert [a, b][1..] == [b];
    assert [b][1..] == [];
    assert CombineAll(s, [a, b]) == CombineAll(Combine(s, a), [b]);
    assert CombineAll(Combine(s, a), [b]) == CombineAll(Combine(Combine(s, a), b), []);
  }

  /** A variant hashes only its active payload: the index of the alternative is not mixed in. */
  lemma VariantIgnoresIndex(s: bv64, i: nat, j: nat, a: Hashable)
    ensures Combine(s, Variant(i, a)) == Combine(s, Variant(j, a))
    ensures Combine(s, Variant(i, a)) == Combine(s, a)
  {
  }

  /**
   * As written, the tuple's comma fold keeps only the last call: a tuple of
   * two or more elements hashes like its last element alone, whatever the
   * earlier ones are.
   */
  lemma TupleIgnoresLeading(s: bv64, h1: Hashable, h2: Hashable, t: seq<Hashable>)
    requires |t| > 0
    ensures Combine(s, Tuple(h1, t)) == Combine(s, Tuple(h2, t))
    ensures Combine(s, Tuple(h1, t)) == Combine(s, t[|t| - 1])
  {
  }

  /** Two tuples that differ only in their first element collide. */
  lemma TupleCollision()
    ensures Tuple(Hashed(1), [Hashed(2)]) != Tuple(Hashed(3), [Hashed(2)])
    ensures Combine(0, Tuple(Hashed(1), [Hashed(2)])) == Combine(0, Tuple(Hashed(3), [Hashed(2)]))
  {
    TupleIgnoresLeading(0, Hashed(1), Hashed(3), [Hashed(2)]);
  }

  /** The evidently intended tuple combine: every element folded in order, as for a pair. */
  function CombineTupleFolded(s: bv64, head: Hashable, tail: seq<Hashable>): (h: bv64)
    ensures h == CombineAll(s, [head] + tail)
  {
    assert ([head] + tail)[1..] == tail;
    CombineAll(Combine(s, head), tail)
  }

  /** On two elements the folded tuple combine is the pair combine. */
  lemma TupleFoldedIsPair(s: bv64, a: Hashable, b: Hashable)
    ensures CombineTupleFolded(s, a, [b]) == Combine(s, Pair(a, b))
  {
    PairCombine(s, a, b);
    assert [a] + [b] == [a, b];
  }

  /** The scalar steps behind the folded combine of the two colliding tuples, evaluated. */
  lemma CollidingTupleSteps()
    ensures Mix(0, 1) == 0x9e3779ba && Mix(0, 3) == 0x9e3779bc
    ensures Mix(0x9e3779ba, 2) == 0x28cd94bf13
    ensures Mix(0x9e3779bc, 2) == 0x28cd94be96
  {
  }

  /** The folded combine of a tuple of two digests is two scalar steps from the seed. */
  lemma FoldedDigestPair(s: bv64, d1: bv64, d2: bv64)
    ensures CombineTupleFolded(s, Hashed(d1), [Hashed(d2)]) == Mix(Mix(s, d1), d2)
  {
    TupleFoldedIsPair(s, Hashed(d1), Hashed(d2));
  }

  /** The folded tuple combine separates the two tuples that collide as written. */
  lemma TupleFoldedSeparates()
    ensures CombineTupleFolded(0, Hashed(1), [Hashed(2)]) != CombineTupleFolded(0, Hashed(3), [Hashed(2)])
  {
    FoldedDigestPair(0, 1, 2);
    FoldedDigestPair(0, 3, 2);
    CollidingTupleSteps();
  }
}

=== FILE: paths.dfy ===
/**
 * Paths as the generator's driver handles them (src/main.cpp): a path is the
 * sequence of its components, the way `std::filesystem::path` iterates it.
 * Covers `resolvePath`, the split of an import string into components, the
 * rendering of a path back to a string key, and the file-name / extension
 * handling that decides which inputs are schema files and where the codec
 * source is written.
 */
module Paths {
  import opened Wrappers

  /** A path as its sequence of components; `[]` is the empty path. */
  type Path = seq<string>

  /** The component that means "go up one folder". */
  const DotDot: string := ".."

  /** A well-formed component of a rendered path: non-empty and free of separators. */
  predicate IsComponent(c: string) {
    |c| > 0 && '/' !in c
  }

  predicate AllComponents(p: Path) {
    forall i :: 0 <= i < |p| ==> IsComponent(p[i])
  }

  /** `parent_path()`: drops the last component; the parent of the empty path is empty. */
  function Parent(p: Path): (r: Path)
    ensures |p| == 0 ==> r == []
    ensures |p| > 0 ==> |r| == |p| - 1 && r == p[..|p| - 1]
  {
    if |p| == 0 then [] else p[..|p| - 1]
  }

  /** One iteration of the `resolvePath` loop: `..` pops, anything else is appended by `/=`. */
  function Step(from: Path, segment: string): (r: Path)
    ensures segment != DotDot ==> |r| == |from| + 1 && r[..|from|] == from && r[|from|] == segment
    ensures segment == DotDot ==> |r| == (if |from| == 0 then 0 else |from| - 1) && r == from[..|r|]
  {
    if segment == DotDot then Parent(from) else from + [segment]
  }

  /** `resolvePath(from, path)`: a left fold of `Step` over the components of `path`. */
  function Resolve(from: Path, rel: Path): (r: Path)
    ensures |r| <= |from| + |rel|
    decreases |rel|
  {
    if |rel| == 0 then from else Resolve(Step(from, rel[0]), rel[1..])
  }

  /** Number of `..` components in a relative path. */
  function CountDotDots(rel: Path): nat {
    if |rel| == 0 then 0 else (if rel[0] == DotDot then 1 else 0) + CountDotDots(rel[1..])
  }

  /** Resolving the empty relative path returns the starting folder. */
  lemma ResolveEmpty(from: Path)
    ensures Resolve(from, []) == from
  {
  }

  /** A `..` removes exactly the last component; every other segment, `.` included, is appended literally. */
  lemma ResolveSingle(from: Path, segment: string)
    ensures segment == DotDot && |from| > 0 ==> Resolve(from, [segment]) == from[..|from| - 1]
    ensures segment == DotDot && |from| == 0 ==> Resolve(from, [segment]) == []
    ensures segment != DotDot ==> Resolve(from, [segment]) == from + [segment]
  {
    assert [segment][1..] == [];
  }

  /** Resolution is a left fold: resolving `p` and then `q` is resolving `p + q`. */
  lemma {:induction false} ResolveConcat(from: Path, p: Path, q: Path)
    ensures Resolve(Resolve(from, p), q) == Resolve(from, p + q)
    decreases |p|
  {
    if |p| == 0 {
      assert p + q == q;
    } else {
      assert (p + q)[0] == p[0];
      assert (p + q)[1..] == p[1..] + q;
      ResolveConcat(Step(from, p[0]), p[1..], q);
    }
  }

  /** Without `..` components resolution is plain concatenation. */
  lemma {:induction false} ResolveWithoutDotDot(from: Path, rel: Path)
    requires DotDot !in rel
    ensures Resolve(from, rel) == from + rel
    decreases |rel|
  {
    if |rel| > 0 {
      assert rel[0] != DotDot;
      assert DotDot !in rel[1..] by {
        forall i | 0 <= i < |rel[1..]| ensures rel[1..][i] != DotDot {
          assert rel[1..][i] == rel[i + 1];
        }
      }
      ResolveWithoutDotDot(from + [rel[0]], rel[1..]);
      assert from + [rel[0]] + rel[1..] == from + rel;
    }
  }

  /**
   * The first `|from| - k` components of the starting folder survive when the
   * relative path holds `k` `..` components: a `..` never reaches further back
   * than the number of `..` seen so far.
   */
  lemma {:induction false} ResolveKeepsPrefix(from: Path, rel: Path)
    ensures var k := |from| - CountDotDots(rel);
      0 <= k ==> k <= |Resolve(from, rel)| && Resolve(from, rel)[..k] == from[..k]
    decreases |rel|
  {
    if |rel| > 0 {
      var k := |from| - CountDotDots(rel);
      var next := Step(from, rel[0]);
      ResolveKeepsPrefix(next, rel[1..]);
      var r := Resolve(next, rel[1..]);
      assert Resolve(from, rel) == r;
      if 0 <= k {
        if rel[0] == DotDot {
          assert CountDotDots(rel) == 1 + CountDotDots(rel[1..]);
          assert |next| == |from| - 1;
          assert next[..k] == from[..k];
        } else {
          assert CountDotDots(rel) == CountDotDots(rel[1..]);
          assert next[..k] == from[..k];
          assert r[..k] == r[..k + 1][..k];
        }
      }
    }
  }

  /** Popping past the empty path leaves it empty: resolution of only `..` from nothing is empty. */
  lemma {:induction false} ResolvePastEmpty(rel: Path)
    requires forall i :: 0 <= i < |rel| ==> rel[i] == DotDot
    ensures Resolve([], rel) == []
    decreases |rel|
  {
    if |rel| > 0 {
      assert Step([], rel[0]) == [];
      ResolvePastEmpty(rel[1..]);
    }
  }

  /** Length of the leading run of non-separator characters. */
  function SegmentLength(s: string): (n: nat)
    ensures n <= |s|
    ensures forall i :: 0 <= i < n ==> s[i] != '/'
    ensures n < |s| ==> s[n] == '/'
  {
    if |s| == 0 || s[0] == '/' then 0 else 1 + SegmentLength(s[1..])
  }

  /**
   * The components of a path string as `std::filesystem::path` iterates a
   * relative path: separated by `/`, repeated separators collapsed.
   */
  function Split(s: string): (parts: Path)
    ensures AllComponents(parts)
    decreases |s|
  {
    if |s| == 0 then []
    else if s[0] == '/' then Split(s[1..])
    else
      var n := SegmentLength(s);
      [s[..n]] + Split(s[n..])
  }

  /** `path.string()`: the components joined by `/`. */
  function Join(p: Path): (r: string)
    ensures |p| > 0 ==> |p[0]| <= |r| && r[..|p[0]|] == p[0]
    ensures |p| > 1 ==> |p[0]| < |r| && r[|p[0]|] == '/'
  {
    if |p| == 0 then ""
    else if |p| == 1 then p[0]
    else p[0] + "/" + Join(p[1..])
  }

  lemma SegmentOfComponent(c: string, rest: string)
    requires IsComponent(c)
    requires |rest| == 0 || rest[0] == '/'
    ensures SegmentLength(c + rest) == |c|
  {
    var s := c + rest;
    assert forall i :: 0 <= i < |c| ==> s[i] == c[i] && s[i] != '/';
    assert |c| < |s| ==> s[|c|] == rest[0] == '/';
  }

  /** Splitting a rendered path gives back its components. */
  lemma {:induction false} SplitJoin(p: Path)
    requires AllComponents(p)
    ensures Split(Join(p)) == p
    decreases |p|
  {
    if |p| == 1 {
      SegmentOfComponent(p[0], "");
      assert p[0] + "" == p[0];
      assert Join(p)[..|p[0]|] == p[0];
      assert Join(p)[|p[0]|..] == "";
    } else if |p| > 1 {
      var tail := "/" + Join(p[1..]);
      var s := Join(p);
      assert s == p[0] + tail;
      SegmentOfComponent(p[0], tail);
      assert s[0] == p[0][0];
      assert s[..|p[0]|] == p[0];
      assert s[|p[0]|..] == tail;
      assert tail[1..] == Join(p[1..]);
      SplitJoin(p[1..]);
      assert [p[0]] + p[1..] == p;
    }
  }

  /** `filename()`: the last component, empty for the empty path. */
  function Filename(p: Path): (r: string)
    ensures |p| > 0 ==> Parent(p) + [r] == p
    ensures |p| == 0 ==> r == ""
  {
    if |p| == 0 then "" else p[|p| - 1]
  }

  /** Position of the last `.` in `s`, if any. */
  function LastDot(s: string): (r: Option<nat>)
    ensures r.Some? ==>
      r.value < |s| && s[r.value] == '.' && forall j :: r.value < j < |s| ==> s[j] != '.'
    ensures r.None? ==> forall j :: 0 <= j < |s| ==> s[j] != '.'
  {
    if |s| == 0 then None
    else if s[|s| - 1] == '.' then Some(|s| - 1)
    else LastDot(s[..|s| - 1])
  }

  /**
   * Where `extension()` of a file name begins: at its last `.`, except for the
   * names `.` and `..` and a dot that is the first character (a hidden file);
   * `|name|` when there is no extension.
   */
  function ExtensionStart(name: string): (i: nat)
    ensures i <= |name|
    ensures i < |name| ==>
      0 < i && name[i] == '.' && forall j :: i < j < |name| ==> name[j] != '.'
    ensures i == |name| ==>
      name == "." || name == ".." || forall j :: 0 < j < |name| ==> name[j] != '.'
  {
    if name == "." || name == ".." then |name|
    else match LastDot(name)
      case None => |name|
      case Some(k) => if k == 0 then |name| else k
  }

  /** `extension()`: the suffix from the extension's dot, or empty. */
  function Extension(name: string): (r: string)
    ensures |r| <= |name| && r == name[|name| - |r|..]
    ensures r != "" ==> |r| < |name| && r[0] == '.' && forall j :: 0 < j < |r| ==> r[j] != '.'
  {
    name[ExtensionStart(name)..]
  }

  /** `stem()`: the file name without its extension. */
  function Stem(name: string): (r: string)
    ensures |r| <= |name| && r == name[..|r|]
    ensures |name| > 0 ==> |r| > 0
  {
    name[..ExtensionStart(name)]
  }

  lemma StemExtension(name: string)
    ensures Stem(name) + Extension(name) == name
  {
  }

  const SchemaExtension: string := ".capnp"
  const ConvertSourceExtension: string := ".convert.cpp"

  /** The driver's filter: an input is processed only if its extension is exactly `.capnp`. */
  predicate IsSchemaFile(name: string) {
    Extension(name) == SchemaExtension
  }

  /** A file name is accepted exactly when it is longer than `.capnp` and ends with it. */
  lemma SchemaFileIff(name: string)
    ensures IsSchemaFile(name) <==>
      |name| > |SchemaExtension| && name[|name| - |SchemaExtension|..] == SchemaExtension
  {
    var n := |SchemaExtension|;
    if |name| > n && name[|name| - n..] == SchemaExtension {
      var k := |name| - n;
      assert name[k] == '.';
      assert forall j :: k < j < |name| ==> name[j] == SchemaExtension[j - k] != '.';
      assert |name| > 2;
      assert LastDot(name) == Some(k);
      assert ExtensionStart(name) == k;
    }
  }

  /** `replace_extension(ext)`: the stem followed by `ext`, a dot inserted if `ext` lacks one. */
  function ReplaceExtension(name: string, ext: string): (r: string)
    ensures |Stem(name)| <= |r| && r[..|Stem(name)|] == Stem(name)
    ensures ext != "" ==> |Stem(name)| < |r| && r[|Stem(name)|] == '.'
  {
    Stem(name) + (if |ext| == 0 || ext[0] == '.' then ext else "." + ext)
  }

  /** Where the codec source of an input is written: `outputFolder / filename` with `.convert.cpp`. */
  function ConvertSourcePath(outputFolder: Path, filename: string): (r: Path)
    requires IsSchemaFile(filename)
    ensures |r| == |outputFolder| + 1 && r[..|outputFolder|] == outputFolder
    ensures r[|outputFolder|] == filename[..|filename| - |SchemaExtension|] + ConvertSourceExtension
  {
    SchemaFileIff(filename);
    outputFolder + [ReplaceExtension(filename, ConvertSourceExtension)]
  }
}

=== FILE: registry.dfy ===
/**
 * The first-writer-wins maps the driver fills while walking schema files
 * (src/main.cpp): `std::map::emplace`, which inserts only when the key is
 * absent, and `std::map::merge`, which moves over only the keys the target
 * lacks.
 */
module Registry {
  import opened Wrappers

  /** `m.emplace(k, v)`: inserts only if `k` is absent; an existing entry is never overwritten. */
  function Emplace<K, V>(m: map<K, V>, k: K, v: V): (r: map<K, V>)
    ensures r.Keys == m.Keys + {k}
    ensures forall j :: j in m ==> r[j] == m[j]
    ensures k !in m ==> r[k] == v
  {
    if k in m then m else m[k := v]
  }

  /** A sequence of `emplace` calls, in order. */
  function EmplaceAll<K, V>(m: map<K, V>, entries: seq<(K, V)>): map<K, V>
    decreases |entries|
  {
    if |entries| == 0 then m else EmplaceAll(Emplace(m, entries[0].0, entries[0].1), entries[1..])
  }

  /** The value of the first entry under key `k`, the reference for "first writer wins". */
  function FirstValue<K(==), V>(entries: seq<(K, V)>, k: K): (r: Option<V>)
    ensures r.None? <==> forall i :: 0 <= i < |entries| ==> entries[i].0 != k
    ensures r.Some? ==> exists i ::
      0 <= i < |entries| && entries[i] == (k, r.value) && forall j :: 0 <= j < i ==> entries[j].0 != k
  {
    if |entries| == 0 then None
    else if entries[0].0 == k then Some(entries[0].1)
    else
      var rest := FirstValue(entries[1..], k);
      assert forall i :: 0 < i < |entries| ==> entries[i] == entries[1..][i - 1];
      rest
  }

  /**
   * First writer wins: after a run of `emplace` calls a key keeps the value it
   * had, and a new key holds the value of its first registration.
   */
  lemma {:induction false} EmplaceAllFirstWriterWins<K, V>(m: map<K, V>, entries: seq<(K, V)>, k: K)
    ensures k in EmplaceAll(m, entries) <==> k in m || FirstValue(entries, k).Some?
    ensures k in m ==> EmplaceAll(m, entries)[k] == m[k]
    ensures k !in m && FirstValue(entries, k).Some? ==>
      EmplaceAll(m, entries)[k] == FirstValue(entries, k).value
    decreases |entries|
  {
    if |entries| > 0 {
      EmplaceAllFirstWriterWins(Emplace(m, entries[0].0, entries[0].1), entries[1..], k);
    }
  }

  /** Every entry already present survives any run of `emplace` calls unchanged. */
  lemma {:induction false} EmplaceAllKeeps<K, V>(m: map<K, V>, entries: seq<(K, V)>)
    ensures m.Keys <= EmplaceAll(m, entries).Keys
    ensures forall k :: k in m ==> EmplaceAll(m, entries)[k] == m[k]
    decreases |entries|
  {
    if |entries| > 0 {
      EmplaceAllKeeps(Emplace(m, entries[0].0, entries[0].1), entries[1..]);
    }
  }

  /** `m.merge(src)`: keys of `src` missing from `m` are added, existing keys keep their values. */
  function Merge<K, V>(m: map<K, V>, src: map<K, V>): (r: map<K, V>)
    ensures r.Keys == m.Keys + src.Keys
    ensures forall k :: k in m ==> r[k] == m[k]
    ensures forall k :: k in src && k !in m ==> r[k] == src[k]
  {
    map k | k in m.Keys + src.Keys :: if k in m then m[k] else src[k]
  }

  /** Merging a one-entry map is the same as a single `emplace`. */
  lemma MergeSingleIsEmplace<K, V>(m: map<K, V>, k: K, v: V)
    ensures Merge(m, map[k := v]) == Emplace(m, k, v)
  {
  }

  /** Merging the same source twice changes nothing the second time. */
  lemma MergeIdempotent<K, V>(m: map<K, V>, src: map<K, V>)
    ensures Merge(Merge(m, src), src) == Merge(m, src)
  {
  }

  /** Merging is associative: the earliest map wins on every shared key, however grouped. */
  lemma MergeAssociative<K, V>(a: map<K, V>, b: map<K, V>, c: map<K, V>)
    ensures Merge(Merge(a, b), c) == Merge(a, Merge(b, c))
  {
  }
}

=== FILE: resolver.dfy ===
/**
 * The driver's per-input pass (src/main.cpp, `do_main`): filter the inputs,
 * register the root schema's structs, then walk the root's import statements,
 * resolve each relative import against the importing file's folder, and merge
 * what the import declares into the registries with first-writer-wins
 * semantics. The schema parser and the schema walkers are outside this model;
 * their results are the abstract `ParsedSchema` below.
 */
module Resolver {
  import opened Wrappers
  import opened Paths
  import Registry

  /** A schema's 64-bit unique id. */
  type TypeId = nat

  /** A struct as the walker hands it to the registering callback: its schema and its parent scope. */
  datatype StructDecl = StructDecl(id: TypeId, displayName: string, parentId: TypeId)

  /** An import statement of a schema file: an optional `using` alias and the quoted path. */
  datatype Import = Import(alias: string, path: string)

  /**
   * What the parser and the walkers report about one schema file: its
   * namespace, the structs in walk order (their number is the walker's
   * count), the external-type map and headers, the union map, and the raw
   * import statements.
   */
  datatype ParsedSchema = ParsedSchema(
    namespace: string,
    structs: seq<StructDecl>,
    externalTypes: map<TypeId, string>,
    podHeaders: seq<string>,
    unions: map<TypeId, seq<string>>,
    imports: seq<Import>)

  /** The registries built for one input file and handed to the renderer. */
  datatype SchemaInfo = SchemaInfo(
    typesByName: map<string, StructDecl>,
    typesById: map<TypeId, StructDecl>,
    parentOf: map<TypeId, TypeId>,
    importNamespaces: map<string, string>,
    importAliases: map<string, string>,
    externalTypes: map<TypeId, string>,
    podHeaders: seq<string>,
    unions: map<TypeId, seq<string>>)

  /** The files as the driver sees them: which paths exist and which parse. */
  datatype FileSystem = FileSystem(existing: set<Path>, parseable: map<Path, ParsedSchema>)

  const EmptyInfo: SchemaInfo := SchemaInfo(map[], map[], map[], map[], map[], map[], [], map[])

  /** `m` is contained in `m'` with every value unchanged. */
  ghost predicate SubMap<K, V>(m: map<K, V>, m': map<K, V>) {
    m.Keys <= m'.Keys && forall k :: k in m ==> m'[k] == m[k]
  }

  /** `after` keeps every registry entry of `before` and the same pod headers. */
  ghost predicate Extends(before: SchemaInfo, after: SchemaInfo) {
    && SubMap(before.typesByName, after.typesByName)
    && SubMap(before.typesById, after.typesById)
    && SubMap(before.parentOf, after.parentOf)
    && SubMap(before.importNamespaces, after.importNamespaces)
    && SubMap(before.importAliases, after.importAliases)
    && SubMap(before.externalTypes, after.externalTypes)
    && SubMap(before.unions, after.unions)
    && before.podHeaders == after.podHeaders
  }

  /**
   * The registering callback: each map takes the struct only under a key it
   * does not yet hold, by display name, by id, and the parent id by id.
   */
  function PutType(info: SchemaInfo, d: StructDecl): (r: SchemaInfo)
    ensures Extends(info, r)
    ensures d.displayName in r.typesByName && d.id in r.typesById && d.id in r.parentOf
    ensures d.displayName !in info.typesByName ==> r.typesByName[d.displayName] == d
    ensures d.id !in info.typesById ==> r.typesById[d.id] == d
    ensures d.id !in info.parentOf ==> r.parentOf[d.id] == d.parentId
    ensures r.typesByName.Keys == info.typesByName.Keys + {d.displayName}
    ensures r.typesById.Keys == info.typesById.Keys + {d.id}
    ensures r.(typesByName := info.typesByName, typesById := info.typesById, parentOf := info.parentOf) == info
  {
    info.(
      typesByName := Registry.Emplace(info.typesByName, d.displayName, d),
      typesById := Registry.Emplace(info.typesById, d.id, d),
      parentOf := Registry.Emplace(info.parentOf, d.id, d.parentId))
  }

  /** The walker calling `PutType` for every struct, in order. */
  function PutTypes(info: SchemaInfo, ds: seq<StructDecl>): (r: SchemaInfo)
    ensures Extends(info, r)
    ensures forall i :: 0 <= i < |ds| ==>
      ds[i].id in r.typesById && ds[i].displayName in r.typesByName && ds[i].id in r.parentOf
    ensures r.(typesByName := info.typesByName, typesById := info.typesById, parentOf := info.parentOf) == info
    decreases |ds|
  {
    if |ds| == 0 then info else PutTypes(PutType(info, ds[0]), ds[1..])
  }

  /**
   * The three registries after `PutTypes` are the `emplace` folds of the
   * walked (name, struct), (id, struct) and (id, parent id) pairs.
   */
  lemma {:induction false} PutTypesFolds(info: SchemaInfo, ds: seq<StructDecl>)
    ensures PutTypes(info, ds).typesById == Registry.EmplaceAll(info.typesById, ById(ds))
    ensures PutTypes(info, ds).typesByName == Registry.EmplaceAll(info.typesByName, ByName(ds))
    ensures PutTypes(info, ds).parentOf == Registry.EmplaceAll(info.parentOf, Parents(ds))
    decreases |ds|
  {
    if |ds| > 0 {
      PutTypesFolds(PutType(info, ds[0]), ds[1..]);
      assert ById(ds)[1..] == ById(ds[1..]);
      assert ByName(ds)[1..] == ByName(ds[1..]);
      assert Parents(ds)[1..] == Parents(ds[1..]);
    }
  }

  function ById(ds: seq<StructDecl>): (r: seq<(TypeId, StructDecl)>)
    ensures |r| == |ds| && forall i :: 0 <= i < |ds| ==> r[i] == (ds[i].id, ds[i])
  {
    seq(|ds|, i requires 0 <= i < |ds| => (ds[i].id, ds[i]))
  }

  function ByName(ds: seq<StructDecl>): (r: seq<(string, StructDecl)>)
    ensures |r| == |ds| && forall i :: 0 <= i < |ds| ==> r[i] == (ds[i].displayName, ds[i])
  {
    seq(|ds|, i requires 0 <= i < |ds| => (ds[i].displayName, ds[i]))
  }

  function Parents(ds: seq<StructDecl>): (r: seq<(TypeId, TypeId)>)
    ensures |r| == |ds| && forall i :: 0 <= i < |ds| ==> r[i] == (ds[i].id, ds[i].parentId)
  {
    seq(|ds|, i requires 0 <= i < |ds| => (ds[i].id, ds[i].parentId))
  }

  /**
   * A struct id registered twice keeps the struct of its first registration:
   * a duplicate reached through a second import is silently ignored.
   */
  lemma DuplicateIdKeepsFirst(info: SchemaInfo, ds: seq<StructDecl>, id: TypeId)
    requires id !in info.typesById
    requires exists i :: 0 <= i < |ds| && ds[i].id == id
    ensures id in PutTypes(info, ds).typesById
    ensures PutTypes(info, ds).typesById[id] == Registry.FirstValue(ById(ds), id).value
  {
    PutTypesFolds(info, ds);
    Registry.EmplaceAllFirstWriterWins(info.typesById, ById(ds), id);
  }

  /** Two structs under one display name: the name keeps the struct registered first. */
  lemma DuplicateNameKeepsFirst(info: SchemaInfo, ds: seq<StructDecl>, name: string)
    requires name !in info.typesByName
    requires exists i :: 0 <= i < |ds| && ds[i].displayName == name
    ensures name in PutTypes(info, ds).typesByName
    ensures PutTypes(info, ds).typesByName[name] == Registry.FirstValue(ByName(ds), name).value
  {
    PutTypesFolds(info, ds);
    Registry.EmplaceAllFirstWriterWins(info.typesByName, ByName(ds), name);
  }

  /** The input file's own registration: its namespace under its file name, then its structs. */
  function LoadRoot(filename: string, root: ParsedSchema): (r: SchemaInfo)
    ensures r.importNamespaces == map[filename := root.namespace]
    ensures r.importAliases == map[]
    ensures r.externalTypes == root.externalTypes && r.podHeaders == root.podHeaders
    ensures r.unions == root.unions
    ensures forall i :: 0 <= i < |root.structs| ==>
      root.structs[i].id in r.typesById && root.structs[i].displayName in r.typesByName
      && root.structs[i].id in r.parentOf
    ensures r.typesById == Registry.EmplaceAll(map[], ById(root.structs))
    ensures r.typesByName == Registry.EmplaceAll(map[], ByName(root.structs))
    ensures r.parentOf == Registry.EmplaceAll(map[], Parents(root.structs))
  {
    var withNamespace := EmptyInfo.(importNamespaces := map[filename := root.namespace]);
    PutTypesFolds(withNamespace, root.structs);
    PutTypes(withNamespace, root.structs).(
      externalTypes := root.externalTypes,
      podHeaders := root.podHeaders,
      unions := root.unions)
  }

  /** How the import loop treats an import path. */
  datatype ImportTarget = BuiltIn | Absolute | Relative(path: Path)

  const BuiltInPrefix: string := "/capnp/"

  predicate StartsWith(s: string, prefix: string) {
    |prefix| <= |s| && s[..|prefix|] == prefix
  }

  /**
   * The import filter: `/capnp/...` and other absolute imports are skipped;
   * anything else (the empty path too) is resolved against the folder of the
   * importing input.
   */
  function ClassifyImport(inputFolder: Path, importPath: string): (t: ImportTarget)
    ensures t.Relative? <==> |importPath| == 0 || importPath[0] != '/'
    ensures t.BuiltIn? <==> StartsWith(importPath, BuiltInPrefix)
    ensures t.Relative? ==> t.path == Resolve(inputFolder, Split(importPath))
  {
    if StartsWith(importPath, BuiltInPrefix) then BuiltIn
    else if |importPath| > 0 && importPath[0] == '/' then Absolute
    else Relative(Resolve(inputFolder, Split(importPath)))
  }

  /** The import names a file that resolves and parses. */
  ghost predicate ImportParses(imp: Import, inputFolder: Path, fs: FileSystem) {
    var t := ClassifyImport(inputFolder, imp.path);
    t.Relative? && t.path in fs.parseable
  }

  /**
   * One iteration of the import loop. An import that is skipped, or whose
   * parse throws, leaves the registries as they were. Otherwise its structs
   * are registered; its namespace (and its alias, when non-empty) are
   * recorded only when it declared at least one struct; its external types
   * and unions are merged without overwriting.
   */
  function ProcessImport(info: SchemaInfo, imp: Import, inputFolder: Path, fs: FileSystem): (r: SchemaInfo)
    ensures Extends(info, r)
    ensures !ImportParses(imp, inputFolder, fs) ==> r == info
    ensures ImportParses(imp, inputFolder, fs) ==>
      var p := ClassifyImport(inputFolder, imp.path).path;
      var schema := fs.parseable[p];
      && (forall i :: 0 <= i < |schema.structs| ==>
            schema.structs[i].id in r.typesById && schema.structs[i].displayName in r.typesByName
            && schema.structs[i].id in r.parentOf)
      && r.externalTypes.Keys == info.externalTypes.Keys + schema.externalTypes.Keys
      && (forall k :: k in schema.externalTypes && k !in info.externalTypes ==>
            r.externalTypes[k] == schema.externalTypes[k])
      && r.unions.Keys == info.unions.Keys + schema.unions.Keys
      && (forall k :: k in schema.unions && k !in info.unions ==> r.unions[k] == schema.unions[k])
      && (|schema.structs| > 0 && Join(p) !in info.importNamespaces ==>
            Join(p) in r.importNamespaces && r.importNamespaces[Join(p)] == schema.namespace)
      && (|schema.structs| > 0 && imp.alias != "" && imp.alias !in info.importAliases ==>
            imp.alias in r.importAliases && r.importAliases[imp.alias] == Join(p))
    ensures ImportParses(imp, inputFolder, fs) ==>
      var schema := fs.parseable[ClassifyImport(inputFolder, imp.path).path];
      && r.typesById == Registry.EmplaceAll(info.typesById, ById(schema.structs))
      && r.typesByName == Registry.EmplaceAll(info.typesByName, ByName(schema.structs))
      && r.parentOf == Registry.EmplaceAll(info.parentOf, Parents(schema.structs))
  {
    match ClassifyImport(inputFolder, imp.path)
    case BuiltIn => info
    case Absolute => info
    case Relative(p) => if p !in fs.parseable then info else LoadImport(info, imp.alias, Join(p), fs.parseable[p])
  }

  /**
   * The body of the `try` block for an import that parses: register its
   * structs, bind namespace and alias when it declared a struct, merge its
   * external types and unions.
   */
  function LoadImport(info: SchemaInfo, alias: string, key: string, schema: ParsedSchema): (r: SchemaInfo)
    ensures Extends(info, r)
    ensures r.typesById == Registry.EmplaceAll(info.typesById, ById(schema.structs))
    ensures r.typesByName == Registry.EmplaceAll(info.typesByName, ByName(schema.structs))
    ensures r.parentOf == Registry.EmplaceAll(info.parentOf, Parents(schema.structs))
    ensures forall i :: 0 <= i < |schema.structs| ==>
      schema.structs[i].id in r.typesById && schema.structs[i].displayName in r.typesByName
      && schema.structs[i].id in r.parentOf
    ensures r.importNamespaces ==
      if |schema.structs| > 0 then Registry.Emplace(info.importNamespaces, key, schema.namespace)
      else info.importNamespaces
    ensures r.importAliases ==
      if |schema.structs| > 0 && alias != "" then Registry.Emplace(info.importAliases, alias, key)
      else info.importAliases
    ensures r.externalTypes == Registry.Merge(info.externalTypes, schema.externalTypes)
    ensures r.unions == Registry.Merge(info.unions, schema.unions)
  {
    var registered := PutTypes(info, schema.structs);
    PutTypesFolds(info, schema.structs);
    var named := if |schema.structs| > 0 then BindImport(registered, alias, key, schema.namespace) else registered;
    var r := MergeImport(named, schema);
    ExtendsTransitive(info, registered, named);
    ExtendsTransitive(info, named, r);
    r
  }

  /** The import's external types and unions merged in, first writer wins. */
  function MergeImport(info: SchemaInfo, schema: ParsedSchema): (r: SchemaInfo)
    ensures Extends(info, r)
    ensures r.externalTypes == Registry.Merge(info.externalTypes, schema.externalTypes)
    ensures r.unions == Registry.Merge(info.unions, schema.unions)
    ensures r.(externalTypes := info.externalTypes, unions := info.unions) == info
  {
    info.(
      externalTypes := Registry.Merge(info.externalTypes, schema.externalTypes),
      unions := Registry.Merge(info.unions, schema.unions))
  }

  lemma ExtendsTransitive(a: SchemaInfo, b: SchemaInfo, c: SchemaInfo)
    requires Extends(a, b) && Extends(b, c)
    ensures Extends(a, c)
  {
  }

  /** An import that declared a struct names its namespace under its path, and its alias when it has one. */
  function BindImport(info: SchemaInfo, alias: string, key: string, namespace: string): (r: SchemaInfo)
    ensures r.importNamespaces == Registry.Emplace(info.importNamespaces, key, namespace)
    ensures r.importAliases == if alias != "" then Registry.Emplace(info.importAliases, alias, key) else info.importAliases
    ensures r.(importNamespaces := info.importNamespaces, importAliases := info.importAliases) == info
    ensures Extends(info, r)
  {
    info.(
      importNamespaces := Registry.Emplace(info.importNamespaces, key, namespace),
      importAliases := if alias != "" then Registry.Emplace(info.importAliases, alias, key) else info.importAliases)
  }

  /** The import loop over the root file's own import statements, in order. */
  function ProcessImports(info: SchemaInfo, imports: seq<Import>, inputFolder: Path, fs: FileSystem): (r: SchemaInfo)
    ensures Extends(info, r)
    decreases |imports|
  {
    if |imports| == 0 then info
    else ProcessImports(ProcessImport(info, imports[0], inputFolder, fs), imports[1..], inputFolder, fs)
  }

  /** Every struct of every import that resolves and parses ends up registered by id, name and parent. */
  lemma {:induction false} ImportedStructsRegistered(
    info: SchemaInfo, imports: seq<Import>, inputFolder: Path, fs: FileSystem, j: nat, i: nat)
    requires j < |imports| && ImportParses(imports[j], inputFolder, fs)
    requires i < |fs.parseable[ClassifyImport(inputFolder, imports[j].path).path].structs|
    ensures var d := fs.parseable[ClassifyImport(inputFolder, imports[j].path).path].structs[i];
      var r := ProcessImports(info, imports, inputFolder, fs);
      d.id in r.typesById && d.displayName in r.typesByName && d.id in r.parentOf
    decreases |imports|
  {
    var next := ProcessImport(info, imports[0], inputFolder, fs);
    if j == 0 {
      assert Extends(next, ProcessImports(next, imports[1..], inputFolder, fs));
    } else {
      assert imports[1..][j - 1] == imports[j];
      ImportedStructsRegistered(next, imports[1..], inputFolder, fs, j - 1, i);
    }
  }

  /** An absolute import, `/capnp/...` included, changes nothing. */
  lemma AbsoluteImportSkipped(info: SchemaInfo, imp: Import, inputFolder: Path, fs: FileSystem)
    requires |imp.path| > 0 && imp.path[0] == '/'
    ensures ProcessImport(info, imp, inputFolder, fs) == info
  {
  }

  /** An import whose parse throws is ignored. */
  lemma UnparseableImportSkipped(info: SchemaInfo, imp: Import, inputFolder: Path, fs: FileSystem)
    requires |imp.path| == 0 || imp.path[0] != '/'
    requires Resolve(inputFolder, Split(imp.path)) !in fs.parseable
    ensures ProcessImport(info, imp, inputFolder, fs) == info
  {
  }

  /**
   * A namespace binding or alias that an import adds names the import's
   * resolved path, and is only added when that import declared a struct; an
   * added alias is the import's own, non-empty alias.
   */
  lemma ImportBindingsNeedTypes(info: SchemaInfo, imp: Import, inputFolder: Path, fs: FileSystem)
    ensures var r := ProcessImport(info, imp, inputFolder, fs);
      forall k :: k in r.importNamespaces && k !in info.importNamespaces ==>
        ImportContributes(imp, inputFolder, fs) && k == Join(Resolve(inputFolder, Split(imp.path)))
    ensures var r := ProcessImport(info, imp, inputFolder, fs);
      forall a :: a in r.importAliases && a !in info.importAliases ==>
        ImportContributes(imp, inputFolder, fs) && a == imp.alias && a != ""
        && r.importAliases[a] == Join(Resolve(inputFolder, Split(imp.path)))
  {
  }

  /** The import is relative, parses, and declares at least one struct. */
  ghost predicate ImportContributes(imp: Import, inputFolder: Path, fs: FileSystem) {
    var t := ClassifyImport(inputFolder, imp.path);
    t.Relative? && t.path in fs.parseable && |fs.parseable[t.path].structs| > 0
  }

  /**
   * A contributing import gets its namespace recorded under its resolved
   * path, and its non-empty alias bound to that path, wherever the key is new.
   */
  lemma ContributingImportRecorded(info: SchemaInfo, imp: Import, inputFolder: Path, fs: FileSystem)
    requires ImportContributes(imp, inputFolder, fs)
    ensures var p := Resolve(inputFolder, Split(imp.path));
      var r := ProcessImport(info, imp, inputFolder, fs);
      Join(p) !in info.importNamespaces ==>
        Join(p) in r.importNamespaces && r.importNamespaces[Join(p)] == fs.parseable[p].namespace
    ensures var p := Resolve(inputFolder, Split(imp.path));
      var r := ProcessImport(info, imp, inputFolder, fs);
      imp.alias != "" && imp.alias !in info.importAliases ==>
        imp.alias in r.importAliases && r.importAliases[imp.alias] == Join(p)
  {
  }

  /** Why the driver passes over an input. */
  datatype Skip = NotFound | NotSchemaFile

  /** The input exists and is a `.capnp` file, but its root schema does not parse. */
  predicate RootFails(fs: FileSystem, input: Path) {
    input in fs.existing && IsSchemaFile(Filename(input)) && input !in fs.parseable
  }

  /** The result of handling one input: skipped, aborting the run, or registries to render. */
  datatype InputOutcome = Skipped(reason: Skip) | RootParseFailed | Loaded(info: SchemaInfo)

  /**
   * One input of the driver loop: a missing file or a file whose extension
   * is not `.capnp` is skipped; the root's parse error escapes the loop;
   * otherwise the root is registered and its imports are merged in.
   */
  function LoadInput(fs: FileSystem, input: Path): (r: InputOutcome)
    ensures r.Loaded? <==> input in fs.existing && IsSchemaFile(Filename(input)) && input in fs.parseable
    ensures r.Skipped? <==> input !in fs.existing || !IsSchemaFile(Filename(input))
    ensures r.RootParseFailed? <==> RootFails(fs, input)
  {
    if input !in fs.existing then Skipped(NotFound)
    else if !IsSchemaFile(Filename(input)) then Skipped(NotSchemaFile)
    else if input !in fs.parseable then RootParseFailed
    else
      var root := fs.parseable[input];
      Loaded(ProcessImports(LoadRoot(Filename(input), root), root.imports, Parent(input), fs))
  }

  /** Imports never displace the root's registrations: every struct the root registered keeps its entry. */
  lemma RootEntriesSurvive(fs: FileSystem, input: Path)
    requires LoadInput(fs, input).Loaded?
    ensures var root := LoadRoot(Filename(input), fs.parseable[input]);
      var info := LoadInput(fs, input).info;
      && SubMap(root.typesById, info.typesById)
      && SubMap(root.typesByName, info.typesByName)
      && SubMap(root.parentOf, info.parentOf)
    ensures LoadInput(fs, input).info.importNamespaces[Filename(input)] == fs.parseable[input].namespace
    ensures LoadInput(fs, input).info.podHeaders == fs.parseable[input].podHeaders
  {
    var root := fs.parseable[input];
    var loaded := LoadRoot(Filename(input), root);
    assert Extends(loaded, ProcessImports(loaded, root.imports, Parent(input), fs));
  }

  /**
   * The imports of a loaded input are resolved against the input's own folder:
   * every struct of every root import that resolves from there and parses is
   * in the registries handed to the renderer.
   */
  lemma ImportedStructsLoaded(fs: FileSystem, input: Path, j: nat, i: nat)
    requires LoadInput(fs, input).Loaded?
    requires j < |fs.parseable[input].imports|
    requires ImportParses(fs.parseable[input].imports[j], Parent(input), fs)
    requires var imp := fs.parseable[input].imports[j];
      i < |fs.parseable[Resolve(Parent(input), Split(imp.path))].structs|
    ensures var imp := fs.parseable[input].imports[j];
      var d := fs.parseable[Resolve(Parent(input), Split(imp.path))].structs[i];
      var info := LoadInput(fs, input).info;
      d.id in info.typesById && d.displayName in info.typesByName && d.id in info.parentOf
  {
    var root := fs.parseable[input];
    ImportedStructsRegistered(LoadRoot(Filename(input), root), root.imports, Parent(input), fs, j, i);
  }

  /** One input the driver renders: the input, where its codec source goes, and its registries. */
  datatype Job = Job(input: Path, convertSource: Path, info: SchemaInfo)

  /** The run was aborted by the root parse failure of `input`, after rendering the jobs in `rendered`. */
  datatype Abort = Abort(rendered: seq<Job>, input: Path)

  /** The job of a loaded input: its codec source beside its registries. */
  function JobFor(fs: FileSystem, outputFolder: Path, input: Path): (j: Job)
    requires LoadInput(fs, input).Loaded?
    ensures j.input == input && j.info == LoadInput(fs, input).info
    ensures j.convertSource == ConvertSourcePath(outputFolder, Filename(input))
  {
    Job(input, ConvertSourcePath(outputFolder, Filename(input)), LoadInput(fs, input).info)
  }

  /** Reference: the jobs of the loaded inputs, one each, in input order; other inputs contribute none. */
  function JobsOf(fs: FileSystem, outputFolder: Path, inputs: seq<Path>): (jobs: seq<Job>)
    ensures |jobs| <= |inputs|
    decreases |inputs|
  {
    if |inputs| == 0 then []
    else if LoadInput(fs, inputs[0]).Loaded? then [JobFor(fs, outputFolder, inputs[0])] + JobsOf(fs, outputFolder, inputs[1..])
    else JobsOf(fs, outputFolder, inputs[1..])
  }

  /** `JobsOf` distributes over concatenation, so the jobs keep the order of their inputs. */
  lemma {:induction false} JobsOfConcat(fs: FileSystem, outputFolder: Path, a: seq<Path>, b: seq<Path>)
    ensures JobsOf(fs, outputFolder, a + b) == JobsOf(fs, outputFolder, a) + JobsOf(fs, outputFolder, b)
    decreases |a|
  {
    if |a| == 0 {
      assert a + b == b;
    } else {
      assert (a + b)[0] == a[0];
      assert (a + b)[1..] == a[1..] + b;
      JobsOfConcat(fs, outputFolder, a[1..], b);
    }
  }

  /** Every loaded input has its job among the jobs, and every job belongs to a loaded input. */
  lemma {:induction false} JobsOfComplete(fs: FileSystem, outputFolder: Path, inputs: seq<Path>)
    ensures forall k :: 0 <= k < |inputs| && LoadInput(fs, inputs[k]).Loaded? ==>
      JobFor(fs, outputFolder, inputs[k]) in JobsOf(fs, outputFolder, inputs)
    ensures forall j :: j in JobsOf(fs, outputFolder, inputs) ==>
      j.input in inputs && LoadInput(fs, j.input).Loaded? && j == JobFor(fs, outputFolder, j.input)
    decreases |inputs|
  {
    if |inputs| > 0 {
      JobsOfComplete(fs, outputFolder, inputs[1..]);
      forall k | 0 < k < |inputs| ensures inputs[k] == inputs[1..][k - 1] { }
    }
  }

  /** Position of the first input whose root fails to parse, or the number of inputs if none does. */
  function FirstRootFailure(fs: FileSystem, inputs: seq<Path>): (k: nat)
    ensures k <= |inputs|
    ensures forall i :: 0 <= i < k ==> !RootFails(fs, inputs[i])
    ensures k < |inputs| ==> RootFails(fs, inputs[k])
    decreases |inputs|
  {
    if |inputs| == 0 then 0
    else if RootFails(fs, inputs[0]) then 0
    else
      var k := FirstRootFailure(fs, inputs[1..]);
      assert forall i :: 1 <= i < k + 1 ==> inputs[i] == inputs[1..][i - 1];
      k + 1
  }

  /**
   * The driver loop over all inputs: skipped inputs produce no job; a loaded
   * input is rendered before the next is looked at; a root parse failure
   * escapes the loop and ends the run, after the jobs of the earlier inputs.
   */
  function Plan(fs: FileSystem, outputFolder: Path, inputs: seq<Path>): (r: Result<seq<Job>, Abort>)
    ensures var k := FirstRootFailure(fs, inputs);
      r.Success? <==> k == |inputs|
    ensures r.Success? ==> r.value == JobsOf(fs, outputFolder, inputs)
    ensures var k := FirstRootFailure(fs, inputs);
      r.Failure? ==> k < |inputs| && r.error == Abort(JobsOf(fs, outputFolder, inputs[..k]), inputs[k])
    decreases |inputs|
  {
    if |inputs| == 0 then Success([])
    else
      var input := inputs[0];
      var load := LoadInput(fs, input);
      if load.RootParseFailed? then Failure(Abort([], input))
      else
        PlanStep(fs, outputFolder, inputs);
        var head := if load.Loaded? then [JobFor(fs, outputFolder, input)] else [];
        match Plan(fs, outputFolder, inputs[1..])
        case Failure(Abort(done, bad)) => Failure(Abort(head + done, bad))
        case Success(jobs) => Success(head + jobs)
  }

  /** One step of the driver loop past an input whose root parses: the failure index and the jobs shift by it. */
  lemma PlanStep(fs: FileSystem, outputFolder: Path, inputs: seq<Path>)
    requires |inputs| > 0 && !LoadInput(fs, inputs[0]).RootParseFailed?
    ensures FirstRootFailure(fs, inputs) == FirstRootFailure(fs, inputs[1..]) + 1
    ensures var head := if LoadInput(fs, inputs[0]).Loaded? then [JobFor(fs, outputFolder, inputs[0])] else [];
      && JobsOf(fs, outputFolder, inputs) == head + JobsOf(fs, outputFolder, inputs[1..])
      && JobsOf(fs, outputFolder, inputs[..FirstRootFailure(fs, inputs)])
         == head + JobsOf(fs, outputFolder, inputs[1..][..FirstRootFailure(fs, inputs[1..])])
  {
    var k := FirstRootFailure(fs, inputs[1..]);
    assert FirstRootFailure(fs, inputs) == k + 1;
    var pre := inputs[..k + 1];
    assert pre[0] == inputs[0];
    assert pre[1..] == inputs[1..][..k];
    JobsOfHead(fs, outputFolder, inputs);
    JobsOfHead(fs, outputFolder, pre);
  }

  /** `JobsOf` peels one input: its job if it loads, then the jobs of the rest. */
  lemma JobsOfHead(fs: FileSystem, outputFolder: Path, inputs: seq<Path>)
    requires |inputs| > 0
    ensures JobsOf(fs, outputFolder, inputs) ==
      (if LoadInput(fs, inputs[0]).Loaded? then [JobFor(fs, outputFolder, inputs[0])] else [])
      + JobsOf(fs, outputFolder, inputs[1..])
  {
  }

  /** A run succeeds exactly when no input's root fails to parse, and then every loaded input has its job. */
  lemma PlanComplete(fs: FileSystem, outputFolder: Path, inputs: seq<Path>)
    requires forall i :: 0 <= i < |inputs| ==> !LoadInput(fs, inputs[i]).RootParseFailed?
    ensures Plan(fs, outputFolder, inputs).Success?
    ensures forall k :: 0 <= k < |inputs| && LoadInput(fs, inputs[k]).Loaded? ==>
      JobFor(fs, outputFolder, inputs[k]) in Plan(fs, outputFolder, inputs).value
  {
    JobsOfComplete(fs, outputFolder, inputs);
  }

  /** Inputs `a.capnp` that loads and `b.capnp` whose root fails: `a` is rendered before the run ends at `b`. */
  lemma EarlierJobsRendered(fs: FileSystem, outputFolder: Path, a: Path, b: Path)
    requires LoadInput(fs, a).Loaded? && LoadInput(fs, b).RootParseFailed?
    ensures Plan(fs, outputFolder, [a, b]) == Failure(Abort([JobFor(fs, outputFolder, a)], b))
  {
    assert [a, b][1..] == [b];
    assert [a, b][..1] == [a];
    assert [a][1..] == [];
    assert FirstRootFailure(fs, [a, b]) == 1;
    assert JobsOf(fs, outputFolder, [a]) == [JobFor(fs, outputFolder, a)];
  }
}

=== FILE: timestamps.dfy ===
/**
 * The timestamp field converter (include/timestamp.convert.hpp): a
 * Cap'n Proto `UInt64` holds the nanoseconds since the epoch of a
 * `sys_time<nanoseconds>`, whose count is a signed 64-bit integer.
 */
module Timestamps {
  import opened Wrappers

  const TwoTo63: int := 0x8000_0000_0000_0000
  const TwoTo64: int := 0x1_0000_0000_0000_0000

  type UInt64 = x: int | 0 <= x < 0x1_0000_0000_0000_0000
  type Int64 = x: int | -0x8000_0000_0000_0000 <= x < 0x8000_0000_0000_0000

  /** A point in time as its signed nanosecond count since the epoch. */
  datatype Timestamp = Timestamp(nanos: Int64)

  /**
   * `timestampFromNanos`: the unsigned value reinterpreted as a signed count
   * (two's complement, no saturation or error); values from 2^63 on are
   * before the epoch.
   */
  function FromNanos(v: UInt64): (t: Timestamp)
    ensures (t.nanos - v) % TwoTo64 == 0
    ensures t.nanos < 0 <==> v >= TwoTo63
  {
    if v < TwoTo63 then Timestamp(v) else Timestamp(v - TwoTo64)
  }

  /** `timestampToNanos`: the signed count reinterpreted as unsigned. */
  function ToNanos(t: Timestamp): (v: UInt64)
    ensures (v - t.nanos) % TwoTo64 == 0
    ensures v >= TwoTo63 <==> t.nanos < 0
  {
    if t.nanos >= 0 then t.nanos else t.nanos + TwoTo64
  }

  lemma NanosRoundTrip(v: UInt64)
    ensures ToNanos(FromNanos(v)) == v
  {
  }

  lemma TimestampRoundTrip(t: Timestamp)
    ensures FromNanos(ToNanos(t)) == t
  {
  }

  /** `std::hash<Timestamp>`: the nanosecond count as the unsigned 64-bit `std::size_t`. */
  function Hash(t: Timestamp): (h: UInt64)
    ensures h == ToNanos(t)
  {
    ToNanos(t)
  }

  /** Distinct timestamps never share a hash. */
  lemma HashInjective(t1: Timestamp, t2: Timestamp)
    ensures Hash(t1) == Hash(t2) ==> t1 == t2
  {
    if Hash(t1) == Hash(t2) {
      TimestampRoundTrip(t1);
      TimestampRoundTrip(t2);
    }
  }

  /** The scalar formatter: the zoned rendering of the time, in brackets; the rendering depends on the time zone. */
  function OutTimestamp(t: Timestamp, zoned: Timestamp -> string): (s: string)
    ensures |s| >= 2 && s[0] == '[' && s[|s| - 1] == ']'
  {
    "[" + zoned(t) + "]"
  }

  /** The optional formatter: an absent timestamp prints exactly `{}`, a present one as the scalar formatter does. */
  function OutOptionalTimestamp(o: Option<Timestamp>, zoned: Timestamp -> string): (s: string)
    ensures o.None? ==> s == "{}"
    ensures o.Some? ==> s == OutTimestamp(o.value, zoned)
  {
    if o.Some? then OutTimestamp(o.value, zoned) else "{}"
  }

  /** The output tells an absent timestamp from a present one. */
  lemma AbsentDistinguishable(t: Timestamp, zoned: Timestamp -> string)
    ensures OutOptionalTimestamp(None, zoned) != OutOptionalTimestamp(Some(t), zoned)
  {
    assert OutOptionalTimestamp(None, zoned)[0] == '{';
  }
}

=== FILE: wrappers.dfy ===
/** Failure-carrying datatypes shared by the other modules. */
module Wrappers {

  /** A value that may be absent: `std::optional` on the C++ side. */
  datatype Option<+T> = None | Some(value: T)

  /** The outcome of an operation that either produces a value or raises an error. */
  datatype Result<+R, +E> = Success(value: R) | Failure(error: E)
}
